=== FILE: README.md ===
# Course enrollment checkout — a Dafny model

This project models the core of a course-enrollment checkout. A public form collects the buyer's data and payment choice. The backend then:

- computes a tiered price;
- reconciles the buyer's earlier attempt;
- asks a payment service for a card, pix or boleto charge;
- later polls that service to mark the enrollment PAID.

The model has two halves.

**Backend.** Both revisions of the handler are modelled: the current `api/enrollment.js` and the older `api/src/controllers/enrollmentController.js`.

- The enrollment table is a `seq<Record>`. A record's id is its index.
- A handler is a pure function of the table, the request, the current time and the payment service's answers. It returns:
  - the HTTP response;
  - the store writes it issues, in order (a partial update of one record, or an insert);
  - the charge request it sends, if any.
- `Store.Apply` plays the writes, so "what the table looks like afterwards" can be stated and proved.
- The paid count that drives the price is the count of PAID records in the modelled table.
- Prices are integer cents, and "now" is milliseconds since the Unix epoch.

**Front end.** It covers:

- the CPF (Brazilian taxpayer number) cleaner, check-digit validator and formatter of `src/scripts/validateCpf.js`;
- from `public/scripts/cadastro.js`, the phone, card-number and expiry masks, the expiry check made at submit, and the order of the submit guards.

Modules:

| module | file | models |
|---|---|---|
| `Text` | text.dfy | the `replace(/\D/g, '')` digit filter and slicing helpers |
| `Common` | common.dfy | `Option`, JavaScript numbers and their truthiness |
| `Cpf` | cpf.dfy | `cleanCPF`, `isValidCPF`/`calcDigit`, `formatCPF` |
| `Masks` | masks.dfy | the phone, card-number and expiry masks, and the expiry parse |
| `Checkout` | checkout.dfy | the submit handler |
| `Store` | store.dfy | the table, Prisma-style partial updates, first-match lookup |
| `Pricing` | pricing.dfy | `calcularPreco` (the same code in both revisions) |
| `Payment` | payment.dfy | request, charge request, responses, attempt data |
| `Enrollment` | enrollment.dfy | the current `createEnrollment` |
| `Legacy` | legacy.dfy | the older `createEnrollment` |
| `Reconcile` | reconcile.dfy | `checkPaymentStatus` (the same in both revisions apart from comments and logging) |

The price function has the same code in both revisions. The status poller is the same apart from comments and one extra error log in the older revision. Each is modelled once. Their rows below cite either file.

Two behaviours of the current handler are worth stating plainly:

- **Charge failure keeps the earlier reference.** The upsert data `alunoData` (api/enrollment.js:114-122) has no `paymentId` field, so the update at api/enrollment.js:196 keeps a match's earlier reference. Only a newly created record starts without one. When the charge call then fails, nothing links a new reference (the link is api/enrollment.js:245-248). `Enrollment.ChargeState` and `Enrollment.UpsertState` state this.
- **No immediate PAID marking.** A created charge leaves the attempt PENDING, whatever status the payment service returns, until the poller confirms it. `Enrollment.AttemptRecorded` states this.

## Model

| member | source | states |
|---|---|---|
| `Text.DigitsIdempotent` | src/scripts/validateCpf.js:4-6 | cleaning a cleaned string changes nothing |
| `Text.DigitsConcat` | src/scripts/validateCpf.js:4-6 | the digit filter keeps digits in order: the digits of a concatenation are the concatenated digits |
| `Cpf.Clean` | src/scripts/validateCpf.js:4-6 | `cleanCPF`: the result is digits only and no longer than the input; `Cpf.CleanOfDigits` gives that a digit string is returned unchanged and `Text.DigitsConcat` that the digits are kept in order |
| `Cpf.CleanOfDigits` | src/scripts/validateCpf.js:4-6 | a string of digits is its own cleaned form |
| `Cpf.CalcDigit` | src/scripts/validateCpf.js:17-24 | the loop accumulates Σ digit·weight with weights len+1 down to 2; the digit it returns lies in 0..9 and equals the textbook CPF rule (0 when sum mod 11 < 2, else 11 − sum mod 11) |
| `Cpf.SourceRuleIsStandardRule` | src/scripts/validateCpf.js:22-23 | "(sum·10) mod 11, with 10 read as 0" equals the textbook rule for every sum |
| `Cpf.IsValidCpf` | src/scripts/validateCpf.js:8-30 | valid iff non-empty, exactly 11 digits, not all the same digit, and both check digits (weights 10..2 over 9 digits, 11..2 over 10) equal the digits at positions 9 and 10 |
| `Cpf.IsValid` | src/scripts/validateCpf.js:8-30 | `isValidCPF`: valid iff non-empty, exactly 11 digits, not all the same digit, and both check digits, by the textbook rule (remainder r of the weighted sum by 11; 0 when r < 2, else 11 − r), equal the digits at positions 9 and 10 |
| `Cpf.ValidityDependsOnDigits` | src/scripts/validateCpf.js:8-11 | validity of an input equals validity of its cleaned digits, and a valid input has exactly 11 digits |
| `Cpf.RepeatedDigitsPassCheckDigits` | src/scripts/validateCpf.js:13-14 | every repeated-digit number satisfies the check-digit rule, so only the explicit repeated-digit test rejects it; such numbers are invalid |
| `Cpf.RepeatedExamples` | src/scripts/validateCpf.js:13-14 | `111.111.111-11` and `00000000000` are invalid |
| `Cpf.Format` | src/scripts/validateCpf.js:36-41 | at most 11 digits; fewer than 9 come back bare; otherwise dots at positions 3 and 7, a hyphen at 11 when there are more than 9 digits, and 2 or 3 separators added |
| `Cpf.FormatKeepsDigits` | src/scripts/validateCpf.js:36-41 | cleaning a formatted value gives the first 11 digits of the input |
| `Cpf.FormatIdempotent` | src/scripts/validateCpf.js:36-41 | formatting a formatted value changes nothing |
| `Cpf.FormatOfElevenDigits` | src/scripts/validateCpf.js:38-40 | eleven digits format as `ddd.ddd.ddd-dd` |
| `Cpf.FormatExample` | tools/test_frontend.js:51-57 | `52998224725` formats as `529.982.247-25` |
| `Cpf.ValidExample` | tools/test_frontend.js:59-61 | `529.982.247-25` is valid |
| `Cpf.InvalidExample` | tools/test_frontend.js:68-69 | `12345678900` is invalid: its second check digit fails |
| `Cpf.InvalidFormattedExample` | tools/test_frontend.js:68-69 | `123.456.789-00`, the invalid number as the CPF mask leaves it, is invalid |
| `Masks.PhoneMask` | public/scripts/cadastro.js:49-66 | at most 11 digits kept; 2 or fewer shown raw; otherwise `(DD) ` prefix, with one hyphen more when the body is longer than 4 |
| `Masks.PhoneBody` | public/scripts/cadastro.js:59-65 | a body of up to 4 digits is unchanged; 5-7 digits get a hyphen before the last four; 8-9 digits get one after the fifth |
| `Masks.PhoneMaskKeepsDigits` | public/scripts/cadastro.js:50-65 | the digits of the masked phone are the first 11 digits typed |
| `Masks.PhoneMaskIdempotent` | public/scripts/cadastro.js:49-66 | masking a masked phone changes nothing |
| `Masks.PhoneExample` | tools/test_frontend.js:81-85 | `11987654321` masks as `(11) 98765-4321` |
| `Masks.Group4Position` | public/scripts/cadastro.js:31-33 | in the grouped card number, position i is a space iff i mod 5 = 4, and otherwise holds digit i − i/5 |
| `Masks.CardNumberMask` | public/scripts/cadastro.js:28-35 | the masked card number is at most 19 characters long, and position i is a space exactly when i mod 5 = 4 (groups of four) |
| `Masks.Group4Spaces` | public/scripts/cadastro.js:31-33 | in a grouped digit string the spaces sit exactly at the positions i with i mod 5 = 4 |
| `Masks.CardNumberMaskKeepsDigits` | public/scripts/cadastro.js:28-35 | removing the spaces, as the submit handler does, gives the first 16 digits typed |
| `Masks.CardNumberMaskIdempotent` | public/scripts/cadastro.js:28-35 | masking a masked card number changes nothing |
| `Masks.Group4` | public/scripts/cadastro.js:31-33 | `match(/.{1,4}/g).join(' ')`: the empty string stays empty; otherwise one space between consecutive groups, i.e. (\|d\| − 1)/4 spaces |
| `Masks.StripWhitespace` | public/scripts/cadastro.js:168 | no whitespace character (the JavaScript `\s` class) is left; a string without whitespace is unchanged and an all-whitespace one becomes empty, which with `StripConcat` fixes the result as the other characters in order |
| `Masks.StripConcat` | public/scripts/cadastro.js:168 | stripping distributes over concatenation |
| `Masks.ExpiryMask` | public/scripts/cadastro.js:19-25 | digits only; 2 or fewer are returned as typed; more give a `/` at position 2 and a length of 4 or 5 |
| `Masks.ExpiryMaskKeepsDigits` | public/scripts/cadastro.js:19-25 | the mask keeps exactly the first 4 digits typed |
| `Masks.ExpiryMaskIdempotent` | public/scripts/cadastro.js:19-25 | masking a masked expiry changes nothing |
| `Masks.ParseExpiry` | public/scripts/cadastro.js:159-171 | accepted iff the value contains `/` and has length 5; the month is the text before the first `/`; the year is `20` followed by the text after it, up to the next `/` or the end |
| `Masks.MaskedExpiryParses` | public/scripts/cadastro.js:162-171 | a masked expiry is accepted iff 4 digits were typed, and then yields month = first two and year = `20` + next two |
| `Checkout.Submit` | public/scripts/cadastro.js:113-201 | a sent payload has a modality and accepted terms and carries the form's name, email, phone, modality and payment method; its CPF is the field as typed without the formatter and `formatCPF` of it with one; pix and boleto send installments 1 and no card; card sends only with a detected brand, a parsable expiry and a token, and carries the typed installments |
| `Checkout.TokenRequest` | public/scripts/cadastro.js:167-177 | the tokenizer receives the card number with all whitespace removed, the cardholder name and security code as typed, the parsed month and year, and the CPF's digits (the first 11 when the formatter has run) |
| `Checkout.GuardOrder` | public/scripts/cadastro.js:117-162 | each guard (CPF, terms, modality, brand, expiry) stops the submission iff all earlier guards passed and its own condition fails |
| `Checkout.NonCardSubmissionSent` | public/scripts/cadastro.js:196-200 | a pix or boleto submission that passes the first three guards is sent, with installments 1 |
| `Checkout.CardSubmissionSent` | public/scripts/cadastro.js:150-195 | a card submission that passes every guard and gets a token is sent, with that token, the detected brand and the typed installments |
| `Checkout.SentCpfIsFormatted` | public/scripts/cadastro.js:128-131 | with validator and formatter loaded, the sent CPF is `ddd.ddd.ddd-dd` (dots at 3 and 7, hyphen at 11, length 14) with the typed digits |
| `Checkout.InvalidCpfBlocksSubmit` | tools/test_frontend.js:62-78 | the invalid test number, bare or as the CPF mask reformats it on input, stops the submission before anything is sent |
| `Store.FindFirst` | api/enrollment.js:127-129 | the index returned holds the first matching record; `None` iff no record matches |
| `Store.IdentityMatchFirst` | api/enrollment.js:127-129 | the email-or-CPF lookup finds the first record sharing the email or the CPF, and nothing iff no record shares either |
| `Store.CountPaidExtremes` | api/enrollment.js:19 | the PAID count is 0 iff no record is PAID, and the table's length iff all are |
| `Store.CountPaidMarkPaid` | api/enrollment.js:19 | marking one non-PAID record PAID raises the count by exactly one |
| `Store.ApplyPatch` | api/enrollment.js:196 | Prisma's `update`: each field the patch gives replaces the stored one; every other field is kept |
| `Store.Step` | api/enrollment.js:196-202 | a create appends one record; an update of an existing id patches that record alone; the table grows only on create |
| `Pricing.TierFor` | api/enrollment.js:24-35 | tier 1 iff fewer than 20 PAID; tier 2 iff at least 20 PAID and now is at or before the cutoff; tier 3 otherwise |
| `Pricing.Price` | api/enrollment.js:12-16 | `COM_MATERIAL` is charged one of 799.00/1000.00/1920.00, any other modality one of 599.00/700.00/1520.00 |
| `Pricing.PriceRule` | api/enrollment.js:18-37 | the exact price for each tier and modality |
| `Pricing.TiersStrictlyIncrease` | api/enrollment.js:12-16 | tier 1 < tier 2 < tier 3 for both modalities |
| `Pricing.PriceMonotoneInPaidCount` | api/enrollment.js:25-35 | with time fixed, more PAID enrollments never lower the price |
| `Pricing.PriceMonotoneInTime` | api/enrollment.js:29-35 | with the count fixed, a later time never lowers the price |
| `Pricing.MaterialCostsMore` | api/enrollment.js:12-16 | with material always costs more than without, in every tier |
| `Payment.FirstWord` | api/enrollment.js:216 | `name.split(" ")[0]`: a prefix of the name with no space, ending at the first space or at the end of the name |
| `Payment.ChargeRequest` | api/enrollment.js:211-220 | the fields sent: the given price, the description `Curso Matemática - ` plus the modality, the buyer's email and cleaned CPF, and the metadata (buyer data and attempt index), as given; the payer's first name is the name up to its first space |
| `Payment.AttemptPatch` | api/enrollment.js:114-122 | the upsert replaces every field with the attempt data (PENDING, fresh amount) and keeps the earlier payment reference |
| `Enrollment.ParseInstallments` | api/enrollment.js:225-230 | a falsy value reads as 1; otherwise accepted iff an integer in [1, 12], and then the number itself |
| `Enrollment.MethodFor` | api/enrollment.js:223-238 | card sends token, brand and installments equal to the parsed value, and is refused iff the installments do not parse; boleto sends `bolbradesco`; anything else sends `pix` |
| `Enrollment.ReconcilePrior` | api/enrollment.js:143-192 | proceeding writes at most one update, marking the match REJECTED; settling charges nothing and touches only the match |
| `Enrollment.Charge` | api/enrollment.js:223-279 | a charge is made iff the method fields are valid, with the exact request; invalid installments answer 400; a failed charge call answers 500; a `rejected` reply answers 400 (declined); any other reply answers 201 with the reply's id and status and the price; the upsert writes come first and all writes address the attempt |
| `Enrollment.Register` | api/enrollment.js:95-279 | 400 iff no modality; no charge on the short-circuit answers; the charged amount is the tier price and the payer is the buyer with the cleaned CPF; only the attempt's record is written, and never a PAID match |
| `Enrollment.ConflictIffPaid` | api/enrollment.js:133-140 | 409 iff there is a modality and the first email-or-CPF match is PAID |
| `Enrollment.PaidRecordsUntouched` | api/enrollment.js:130-205 | no request changes a PAID record or any record other than the attempt's, and none removes records |
| `Enrollment.ApprovedPriorSettles` | api/enrollment.js:143-153 | a PENDING match whose reference is approved upstream becomes PAID; nothing else changes and nothing is charged |
| `Enrollment.AlreadyApprovedIff` | api/enrollment.js:142-153 | "already approved" iff there is a modality and the match is PENDING with a reference that the payment service reports approved |
| `Enrollment.ResumeIff` | api/enrollment.js:155-179 | resume iff the match is PENDING with a reference in progress upstream and the stored modality is empty or equal; it returns the stored reference and stored amount, writes nothing, charges nothing |
| `Enrollment.ModalityChangeSupersedes` | api/enrollment.js:157-167 | a modality change while in progress marks the match REJECTED, then overwrites it with the new attempt and charges when the method is valid |
| `Enrollment.ClosedPriorSuperseded` | api/enrollment.js:182-186 | a rejected, cancelled or refunded earlier payment is marked REJECTED before the new attempt overwrites the match |
| `Enrollment.UnknownPriorOverwritten` | api/enrollment.js:188-197 | a failed lookup or an unrecognised upstream state overwrites the match straight away |
| `Enrollment.NoReferenceOverwritten` | api/enrollment.js:142-143 | a non-PAID match that is not PENDING with a reference is overwritten straight away under any lookup, and charged iff the method fields are valid |
| `Enrollment.RegisterChargesPastGuards` | api/enrollment.js:101-240 | a request that gets past the no-modality, PAID, approved and resume answers is charged exactly when its method fields are valid |
| `Enrollment.UpsertState` | api/enrollment.js:196 | after the upsert the match holds the attempt data with its earlier reference |
| `Enrollment.ChargeState` | api/enrollment.js:240-260 | an accepted reply (201) links its reference to the attempt; a `rejected` reply (400) links it and marks the attempt REJECTED; invalid installments or a failed charge call leave the upserted table as is |
| `Enrollment.LinkWrites` | api/enrollment.js:245-254 | after the upsert, the link sets only the attempt's reference, and the REJECTED mark after it sets only its status |
| `Enrollment.AttemptRecorded` | api/enrollment.js:196-267 | whenever a charge is sent and answered, the response is 400 (declined) for `rejected` and 201 with the reply's id otherwise; the attempt record holds the request data, the fresh price and the new reference, REJECTED when declined and PENDING otherwise; exactly one record is added iff there was no match |
| `Enrollment.InstallmentsChecked` | api/enrollment.js:196-230 | invalid card installments give 400 with no charge; the attempt record stays as upserted (the request data, the fresh price, PENDING, the match's earlier reference or none), and exactly one record is added iff there was no match |
| `Enrollment.FailedChargeKeepsAttempt` | api/enrollment.js:196-277 | a failed charge call answers 500 and keeps the upserted attempt: the request data, the fresh price, PENDING, the match's earlier reference or none; exactly one record is added iff there was no match |
| `Enrollment.RetryResumes` | api/enrollment.js:143-179 | repeating a request whose charge is still in progress resumes that charge with the amount first charged, instead of charging again |
| `Legacy.LegacyMethod` | api/src/controllers/enrollmentController.js:114-123 | card installments, token and brand are forwarded unchanged; boleto maps to `bolbradesco`, anything else to `pix` |
| `Legacy.LegacyRegister` | api/src/controllers/enrollmentController.js:39-161 | 400 iff no modality, with no write and no charge; otherwise always a charge of the tier price; a failed charge call answers 500, a `rejected` reply 400, any other reply 201 with the reply's id; writes address only the attempt |
| `Legacy.LegacyState` | api/src/controllers/enrollmentController.js:72-133 | the match (even a PAID one) is overwritten with the attempt, or exactly one record is created; after a charge it holds the new reference |
| `Legacy.LegacyOverwritesPaid` | api/src/controllers/enrollmentController.js:78-87 | a PAID match is turned back to PENDING and charged again |
| `Legacy.LegacyDeclinedStaysPending` | api/src/controllers/enrollmentController.js:128-140 | a declined charge leaves the attempt PENDING, linked to the declined reference |
| `Legacy.LegacyForwardsInstallments` | api/src/controllers/enrollmentController.js:114-118 | an installment count the current handler refuses is sent to the payment service unchanged |
| `Legacy.RevisionsChargeSamePrice` | api/src/controllers/enrollmentController.js:18-37 | both revisions charge the same tier price |
| `Legacy.RevisionsAgree` | api/src/controllers/enrollmentController.js:39-161 | with nothing to reconcile, pix or boleto, and no decline, both revisions give the same response, writes and charge |
| `Reconcile.Rebuilt` | api/enrollment.js:315-324 | the fallback record is PAID and linked to the polled id; it takes the metadata's email, CPF, phone and amount; a missing name becomes `Aluno Sem Nome` and a missing modality `SEM_MATERIAL`, and present ones are kept |
| `Reconcile.Poll` | api/enrollment.js:281-348 | 500 iff the fetch fails; the status is echoed iff not approved; only a confirmation writes, and it writes once |
| `Reconcile.NonApprovedNoMutation` | api/enrollment.js:293-295 | a non-approved status or a failed fetch leaves the table unchanged |
| `Reconcile.AlreadyProcessedIff` | api/enrollment.js:297-303 | "already processed" iff approved and the linked record is PAID; the table is then unchanged |
| `Reconcile.LinkedBecomesPaid` | api/enrollment.js:305-310 | an approved payment's linked, non-PAID record becomes PAID and nothing else changes |
| `Reconcile.FallbackRebuild` | api/src/controllers/enrollmentController.js:200-230 | with no linked record, the first email-or-CPF match is replaced by the rebuilt PAID record, or it is appended |
| `Reconcile.PolledIsPaid` | api/src/controllers/enrollmentController.js:185-230 | after an approved poll, the first record linked to the id is PAID |
| `Reconcile.PollIdempotent` | api/src/controllers/enrollmentController.js:185-199 | a second approved poll reports "already processed" and writes nothing |
| `Reconcile.PaidStaysPaid` | api/src/controllers/enrollmentController.js:163-242 | a poll never demotes a PAID record, never removes a record, and changes at most one |
| `Reconcile.RebuildFromChargeMetadata` | api/enrollment.js:315-324 | from a charge's metadata the fallback rebuilds exactly the attempt the handler stored, now PAID and linked, when name and phone were given |
| `Reconcile.CreatedThenApproved` | api/enrollment.js:305-310 | after a created charge with a fresh id, an approved poll confirms it and the attempt becomes PAID with the amount and modality charged |

## Left out

- HTTP plumbing is not modelled: CORS headers, routing, JSON bodies, and the QR-code fields of the responses. Responses are reduced to their kind, and `Payment.HttpStatus` gives the status code of each.
- The payment service and the database are not called. Their answers (`Lookup`, `ChargeReply`, `Fetch`) are parameters, and the card tokenizer is a function parameter of `Checkout.Submit`.
- Store failures are not modelled. Of the thrown errors, only three are: a failed charge call (500), a failed lookup of the earlier payment (which falls through to a new attempt), and the poller's failed fetch (500, `Reconcile.FetchFailed`). The swallowed failures when marking a record REJECTED are not.
- Store.Step: an update of a missing id leaves the table unchanged, where Prisma would throw. The handlers only update ids they have just found or created.
- Concurrency is not modelled: each request runs alone against one table.
- Prices are integer cents. JavaScript floating point, `Date` and `toFixed` are not modelled. A missing `transaction_amount` is modelled as 0, and its `|| 0` is then the identity.
- Request fields are strings. The current handler's `Number(installments)` is modelled only on number values.
- Reconcile.Rebuilt: metadata email and CPF are assumed present. Missing ones would become `undefined` in the Prisma filter, which drops the condition.
- Coupons, confirmation e-mails and marking PAID on an immediate card approval are not modelled. None of them is in the code modelled here.
- DOM behaviour is not modelled: card-brand detection, visibility toggles, the contract modal, the PIX polling timer, and the CPF input mask's event wiring. The mask itself is `Cpf.Format`.
- Reconcile.RebuildFromChargeMetadata: assumes `payment.get` returns the charge's metadata and `transaction_amount` unchanged (`Reconcile.InfoOf`). The payment service is not part of this model.
- Masks.ParseExpiry: lengths count Unicode characters, while the source's `expiracao.length !== 5` counts UTF-16 code units. A value holding a character outside the Basic Multilingual Plane (an emoji, say) is measured differently.
- Masks.PhoneMask: the contract states the lengths and the `(`, `)`, ` ` positions. The full layout is stated by `Masks.PhoneBody` and the digit content by `Masks.PhoneMaskKeepsDigits`.

## Findings

| source | as written | input that shows it | evidently intended | confidence | as-written member | corrected member |
|---|---|---|---|---|---|---|
| api/src/controllers/enrollmentController.js:78-87 | any email-or-CPF match is overwritten with a PENDING attempt, PAID or not, and charged again | a registration whose email matches an enrollment already PAID | a PAID enrollment is final: answer 409, write nothing, charge nothing. The current revision's guard (api/enrollment.js:136-140) shows this intent, though the older code's comment at lines 80-81 calls re-buying deliberate | high, not executed | `Legacy.LegacyOverwritesPaid` | `Enrollment.ConflictIffPaid` |
| api/src/controllers/enrollmentController.js:137-140 | a declined charge returns 400 but leaves the attempt PENDING | any charge answered with status `rejected` | the declined attempt is marked REJECTED (as the current revision does) | high, not executed | `Legacy.LegacyDeclinedStaysPending` | `Enrollment.AttemptRecorded` |

=== FILE: checkout.dfy ===
/** The submit handler of the checkout form (public/scripts/cadastro.js):
    the guards that may stop a submission, in the order they run, and the
    payload sent to the registration endpoint when none does. */
module Checkout {
  import opened Common
  import opened Text
  import Cpf
  import Masks

  /** The form fields the handler reads. */
  datatype Form = Form(
    name: string,
    email: string,
    phone: string,
    cpf: string,
    modality: string,
    paymentMethod: string,
    expiry: string,
    cardNumber: string,
    cardholderName: string,
    securityCode: string,
    installments: JsNumber,   // `Number(parcelas.value)`
    termsAccepted: bool)

  /** What the page offers besides the form: whether the CPF validator and
      formatter scripts are loaded, and the card brand detected so far
      (the empty string when none was). */
  datatype Page = Page(hasValidator: bool, hasFormatter: bool, brand: string)

  /** The data handed to the card tokenizer. */
  datatype CardTokenRequest = CardTokenRequest(
    cardNumber: string,
    cardholderName: string,
    month: string,
    year: string,
    securityCode: string,
    cpfDigits: string)

  datatype CardFields = CardFields(token: string, brand: string)

  /** The registration request body. */
  datatype Payload = Payload(
    name: string,
    email: string,
    phone: string,
    cpf: string,
    modality: string,
    paymentMethod: string,
    installments: JsNumber,
    card: Option<CardFields>)

  /** Why a submission stopped before anything was sent. */
  datatype Stop = InvalidCpf | TermsNotAccepted | NoModality | NoCardBrand | InvalidExpiry | TokenFailed

  datatype Submission =
    | Stopped(reason: Stop)
    | Sent(payload: Payload)

  /** The CPF field after the handler has reformatted it. */
  function CpfField(form: Form, page: Page): string {
    if page.hasFormatter then Cpf.Format(form.cpf) else form.cpf
  }

  /** The tokenizer request the card branch builds. */
  function TokenRequest(form: Form, page: Page, expiry: Masks.Expiry): (r: CardTokenRequest)
    ensures r.cardNumber == Masks.StripWhitespace(form.cardNumber)
    ensures forall i :: 0 <= i < |r.cardNumber| ==> !Masks.IsWhitespace(r.cardNumber[i])
    ensures r.cardholderName == form.cardholderName && r.securityCode == form.securityCode
    ensures r.month == expiry.month && r.year == expiry.year
    ensures AllDigits(r.cpfDigits)
    ensures page.hasFormatter ==> r.cpfDigits == Take(Digits(form.cpf), 11)
    ensures !page.hasFormatter ==> r.cpfDigits == Digits(form.cpf)
  {
    Cpf.FormatKeepsDigits(form.cpf);
    CardTokenRequest(Masks.StripWhitespace(form.cardNumber), form.cardholderName,
                     expiry.month, expiry.year, form.securityCode, Digits(CpfField(form, page)))
  }

  /** The submit handler. `tokenize` stands for the card tokenizer: it maps
      the request built from the form to a token, or to `None` when it
      fails; it is consulted only on the card branch. */
  function Submit(form: Form, page: Page, tokenize: CardTokenRequest -> Option<string>): (s: Submission)
    ensures s.Sent? ==> s.payload.modality != "" && form.termsAccepted
    ensures s.Sent? ==>
              && s.payload.name == form.name && s.payload.email == form.email
              && s.payload.phone == form.phone && s.payload.modality == form.modality
              && s.payload.paymentMethod == form.paymentMethod
    ensures s.Sent? && !page.hasFormatter ==> s.payload.cpf == form.cpf
    ensures s.Sent? && page.hasFormatter ==> s.payload.cpf == Cpf.Format(form.cpf)
    ensures s.Sent? && form.paymentMethod != "cartao" ==> s.payload.installments == Finite(1.0) && s.payload.card == None
    ensures s.Sent? && form.paymentMethod == "cartao" ==>
              && page.brand != ""
              && Masks.ParseExpiry(form.expiry).Some?
              && var request := TokenRequest(form, page, Masks.ParseExpiry(form.expiry).value);
                 && tokenize(request).Some?
                 && s.payload.card == Some(CardFields(tokenize(request).value, page.brand))
                 && s.payload.installments == form.installments
  {
    if page.hasValidator && !Cpf.IsValid(form.cpf) then Stopped(InvalidCpf)
    else if !form.termsAccepted then Stopped(TermsNotAccepted)
    else
      var base := Payload(form.name, form.email, form.phone, CpfField(form, page),
                          form.modality, form.paymentMethod, Finite(1.0), None);
      if form.modality == "" then Stopped(NoModality)
      else if form.paymentMethod == "cartao" then
        if page.brand == "" then Stopped(NoCardBrand)
        else
          match Masks.ParseExpiry(form.expiry)
          case None => Stopped(InvalidExpiry)
          case Some(expiry) =>
            match tokenize(TokenRequest(form, page, expiry))
            case None => Stopped(TokenFailed)
            case Some(t) => Sent(base.(installments := form.installments, card := Some(CardFields(t, page.brand))))
      else Sent(base)
  }

  /** The guards run in the source's order: each stops the submission
      exactly when every earlier guard has passed and its own condition
      fails. */
  lemma GuardOrder(form: Form, page: Page, tokenize: CardTokenRequest -> Option<string>)
    ensures var s := Submit(form, page, tokenize);
            var cpfOk := !page.hasValidator || Cpf.IsValid(form.cpf);
            && (s == Stopped(InvalidCpf) <==> !cpfOk)
            && (s == Stopped(TermsNotAccepted) <==> cpfOk && !form.termsAccepted)
            && (s == Stopped(NoModality) <==> cpfOk && form.termsAccepted && form.modality == "")
            && (s == Stopped(NoCardBrand) <==>
                  cpfOk && form.termsAccepted && form.modality != "" && form.paymentMethod == "cartao"
                  && page.brand == "")
            && (s == Stopped(InvalidExpiry) <==>
                  cpfOk && form.termsAccepted && form.modality != "" && form.paymentMethod == "cartao"
                  && page.brand != "" && !('/' in form.expiry && |form.expiry| == 5))
  {
  }

  /** Pix and boleto submissions go out whenever the first three guards
      pass; only the card branch consults the brand, expiry and tokenizer. */
  lemma NonCardSubmissionSent(form: Form, page: Page, tokenize: CardTokenRequest -> Option<string>)
    requires !page.hasValidator || Cpf.IsValid(form.cpf)
    requires form.termsAccepted && form.modality != "" && form.paymentMethod != "cartao"
    ensures Submit(form, page, tokenize).Sent?
    ensures Submit(form, page, tokenize).payload.installments == Finite(1.0)
  {
  }

  /** A card submission that passes every guard and gets a token is sent,
      with the token, the detected brand and the installments chosen. */
  lemma CardSubmissionSent(form: Form, page: Page, tokenize: CardTokenRequest -> Option<string>)
    requires !page.hasValidator || Cpf.IsValid(form.cpf)
    requires form.termsAccepted && form.modality != "" && form.paymentMethod == "cartao"
    requires page.brand != "" && Masks.ParseExpiry(form.expiry).Some?
    requires tokenize(TokenRequest(form, page, Masks.ParseExpiry(form.expiry).value)).Some?
    ensures var token := tokenize(TokenRequest(form, page, Masks.ParseExpiry(form.expiry).value)).value;
            && Submit(form, page, tokenize).Sent?
            && Submit(form, page, tokenize).payload.card == Some(CardFields(token, page.brand))
            && Submit(form, page, tokenize).payload.installments == form.installments
  {
  }

  /** With the validator and formatter loaded, a sent request carries the
      CPF formatted as `ddd.ddd.ddd-dd`, whose digits are those typed. */
  lemma SentCpfIsFormatted(form: Form, page: Page, tokenize: CardTokenRequest -> Option<string>)
    requires page.hasValidator && page.hasFormatter
    requires Submit(form, page, tokenize).Sent?
    ensures var sent := Submit(form, page, tokenize).payload.cpf;
            Cpf.Clean(sent) == Cpf.Clean(form.cpf) && |sent| == 14
            && sent[3] == '.' && sent[7] == '.' && sent[11] == '-'
  {
    Cpf.ValidityDependsOnDigits(form.cpf);
    Cpf.FormatKeepsDigits(form.cpf);
  }

  /** The invalid number of the front-end tests, typed bare or as the CPF
      mask leaves it, stops the submission before anything is sent, whatever
      else the form holds. */
  lemma InvalidCpfBlocksSubmit(form: Form, page: Page, tokenize: CardTokenRequest -> Option<string>)
    requires form.cpf == "12345678900" || form.cpf == "123.456.789-00"
    requires page.hasValidator
    ensures Submit(form, page, tokenize) == Stopped(InvalidCpf)
  {
    if form.cpf == "12345678900" {
      Cpf.InvalidExample(form.cpf);
    } else {
      Cpf.InvalidFormattedExample(form.cpf);
    }
  }
}

=== FILE: common.dfy ===
/** Small value types used across the front end and the back end. */
module Common {

  /** A value that may be absent (`undefined`/`null` in the source). */
  datatype Option<+T> = None | Some(value: T)

  /** A JavaScript number as far as the handlers look at it: `NaN`, an
      infinity, or a finite value (IEEE rounding is not modelled). */
  datatype JsNumber = NaN | Infinite | Finite(value: real)

  /** JavaScript truthiness of a number: everything but `0` and `NaN`. */
  predicate Truthy(n: JsNumber) {
    match n
    case NaN => false
    case Infinite => true
    case Finite(v) => v != 0.0
  }

  /** `Number.isInteger`. */
  predicate IsInteger(n: JsNumber) {
    n.Finite? && n.value.Floor as real == n.value
  }
}

=== FILE: cpf.dfy ===
/** The Brazilian CPF taxpayer number as the front end checks and formats it
    (src/scripts/validateCpf.js): a cleaner that keeps the digits, the
    modulo-11 check-digit rule, and the `000.000.000-00` formatter. */
module Cpf {
  import opened Text

  /** `cleanCPF`: the decimal digits of the input, in order. */
  function Clean(cpf: string): (r: string)
    ensures AllDigits(r) && |r| <= |cpf|
  {
    Digits(cpf)
  }

  /** Eleven copies of one digit (`/^(\d)\1{10}$/` on a digit string). */
  predicate AllSame(num: string)
    requires |num| == 11
  {
    forall i :: 0 <= i < 11 ==> num[i] == num[0]
  }

  /** The weight `calcDigit(len)` gives to position `i`: len+1 down to 2. */
  function Weight(len: nat, i: nat): int {
    len + 1 - i
  }

  /** Σ_{i<k} digit(i)·Weight(len, i): the loop of `calcDigit` after `k` steps. */
  function WeightedSum(num: string, len: nat, k: nat): (sum: int)
    requires AllDigits(num) && k <= len <= |num|
    ensures sum >= 0
  {
    if k == 0 then 0
    else WeightedSum(num, len, k - 1) + DigitValue(num[k - 1]) * Weight(len, k - 1)
  }

  /** The rule the source writes: (sum·10) mod 11, with 10 mapped to 0. */
  function DigitOfSum(sum: nat): (d: nat)
    ensures d <= 9
  {
    var m := (sum * 10) % 11;
    if m == 10 then 0 else m
  }

  /** The textbook statement of the CPF rule: remainder r of sum by 11;
      the digit is 0 when r < 2 and 11 - r otherwise. */
  function StandardDigitOfSum(sum: nat): nat {
    var r := sum % 11;
    if r < 2 then 0 else 11 - r
  }

  /** `calcDigit(len)`: the check digit computed over the first `len` digits. */
  function CheckDigit(num: string, len: nat): (d: nat)
    requires AllDigits(num) && len <= |num|
    ensures d <= 9
  {
    DigitOfSum(WeightedSum(num, len, len))
  }

  /** The two check digits of an 11-digit number agree with its last two digits. */
  predicate CheckDigitsMatch(num: string)
    requires AllDigits(num) && |num| == 11
  {
    CheckDigit(num, 9) == DigitValue(num[9]) && CheckDigit(num, 10) == DigitValue(num[10])
  }

  /** `isValidCPF`. The empty string stands for every falsy argument. Its
      contract restates the check digits with the textbook rule. */
  predicate IsValid(cpf: string): (ok: bool)
    ensures ok <==>
      && cpf != ""
      && |Clean(cpf)| == 11
      && !AllSame(Clean(cpf))
      && StandardDigitOfSum(WeightedSum(Clean(cpf), 9, 9)) == DigitValue(Clean(cpf)[9])
      && StandardDigitOfSum(WeightedSum(Clean(cpf), 10, 10)) == DigitValue(Clean(cpf)[10])
  {
    if cpf == "" then false
    else
      var num := Clean(cpf);
      if |num| != 11 then false
      else if AllSame(num) then false
      else
        SourceRuleIsStandardRule(WeightedSum(num, 9, 9));
        SourceRuleIsStandardRule(WeightedSum(num, 10, 10));
        CheckDigitsMatch(num)
  }

  /** `calcDigit` as the source writes it: an accumulating loop over the
      first `sliceLen` digits. */
  method CalcDigit(num: string, sliceLen: nat) returns (d: nat)
    requires AllDigits(num) && sliceLen <= |num|
    ensures d <= 9
    ensures d == StandardDigitOfSum(WeightedSum(num, sliceLen, sliceLen))
  {
    var sum := 0;
    var i := 0;
    while i < sliceLen
      invariant 0 <= i <= sliceLen
      invariant sum == WeightedSum(num, sliceLen, i)
    {
      sum := sum + DigitValue(num[i]) * (sliceLen + 1 - i);
      i := i + 1;
    }
    var m := (sum * 10) % 11;
    d := if m == 10 then 0 else m;
    SourceRuleIsStandardRule(sum);
  }

  /** `isValidCPF` step by step, with both check digits computed by the loop. */
  method IsValidCpf(cpf: string) returns (ok: bool)
    ensures ok <==> cpf != "" && |Clean(cpf)| == 11 && !AllSame(Clean(cpf))
                    && StandardDigitOfSum(WeightedSum(Clean(cpf), 9, 9)) == DigitValue(Clean(cpf)[9])
                    && StandardDigitOfSum(WeightedSum(Clean(cpf), 10, 10)) == DigitValue(Clean(cpf)[10])
    ensures ok == IsValid(cpf)
  {
    if cpf == "" {
      return false;
    }
    var num := Clean(cpf);
    if |num| != 11 {
      return false;
    }
    if AllSame(num) {
      return false;
    }
    var d1 := CalcDigit(num, 9);
    var d2 := CalcDigit(num, 10);
    SourceRuleIsStandardRule(WeightedSum(num, 9, 9));
    SourceRuleIsStandardRule(WeightedSum(num, 10, 10));
    ok := d1 == DigitValue(num[9]) && d2 == DigitValue(num[10]);
  }

  /** `formatCPF`: at most 11 digits; with 9 or more they are grouped as
      `ddd.ddd.ddd` followed by `-d` or `-dd`; with fewer the regular
      expression does not match and the digits come back bare. */
  function Format(value: string): (r: string)
    ensures var v := Take(Clean(value), 11);
            |v| < 9 ==> r == v
    ensures var v := Take(Clean(value), 11);
            |v| >= 9 ==> |r| == |v| + (if |v| > 9 then 3 else 2)
                         && r[3] == '.' && r[7] == '.'
                         && (|v| > 9 ==> r[11] == '-')
  {
    var v := Take(Clean(value), 11);
    if |v| >= 9 then v[..3] + ("." + (v[3..6] + ("." + (v[6..9] + CheckSuffix(v))))) else v
  }

  /** The `-d`/`-dd` part of a formatted CPF: empty when there are 9 digits. */
  function CheckSuffix(v: string): string
    requires |v| >= 9
  {
    if |v| > 9 then "-" + v[9..] else ""
  }

  // ---------------------------------------------------------------------
  // Properties

  lemma ModAddMultiple(k: nat, x: nat)
    ensures (11 * k + x) % 11 == x % 11
  {
  }

  /** The source's "(sum·10) mod 11, 10 ↦ 0" is the textbook CPF rule. */
  lemma SourceRuleIsStandardRule(sum: nat)
    ensures DigitOfSum(sum) == StandardDigitOfSum(sum)
  {
    var q, r := sum / 11, sum % 11;
    assert sum == 11 * q + r;
    assert sum * 10 == 11 * (10 * q) + 10 * r;
    ModAddMultiple(10 * q, 10 * r);
    assert (sum * 10) % 11 == (10 * r) % 11;
    assert 0 <= r < 11;
  }

  /** Validity depends only on the digits of the input. */
  lemma ValidityDependsOnDigits(cpf: string)
    ensures IsValid(cpf) == IsValid(Clean(cpf))
    ensures IsValid(cpf) ==> |Clean(cpf)| == 11
  {
    DigitsIdempotent(cpf);
    if cpf != "" && Clean(cpf) == "" {
      assert !IsValid(Clean(cpf));
    }
  }

  /** Σ_{i<k} Weight(len, i). */
  function WeightTotal(len: nat, k: nat): int
    requires k <= len
  {
    if k == 0 then 0 else WeightTotal(len, k - 1) + Weight(len, k - 1)
  }

  lemma {:induction false} WeightedSumOfRepeated(num: string, len: nat, k: nat)
    requires AllDigits(num) && k <= len <= |num| && |num| > 0
    requires forall i :: 0 <= i < |num| ==> num[i] == num[0]
    ensures WeightedSum(num, len, k) == DigitValue(num[0]) * WeightTotal(len, k)
  {
    if k > 0 {
      WeightedSumOfRepeated(num, len, k - 1);
      assert num[k - 1] == num[0];
    }
  }

  /** Every repeated-digit number satisfies the check-digit rule, so the
      explicit repeated-digit rejection is what refuses them. */
  lemma {:induction false} RepeatedDigitsPassCheckDigits(num: string)
    requires AllDigits(num) && |num| == 11 && AllSame(num)
    ensures CheckDigitsMatch(num)
    ensures !IsValid(num)
  {
    var c := DigitValue(num[0]);
    WeightedSumOfRepeated(num, 9, 9);
    WeightedSumOfRepeated(num, 10, 10);
    assert WeightTotal(9, 9) == 54;
    assert WeightTotal(10, 10) == 65;
    assert WeightedSum(num, 9, 9) * 10 == 11 * (49 * c) + c;
    ModAddMultiple(49 * c, c);
    assert WeightedSum(num, 10, 10) * 10 == 11 * (59 * c) + c;
    ModAddMultiple(59 * c, c);
    assert num[9] == num[0] && num[10] == num[0];
    DigitsOfDigits(num);
  }

  /** The separators between three digit groups and a tail are dropped by
      the cleaner. */
  lemma GroupsKeepDigits(a: string, b: string, c: string, tail: string)
    requires AllDigits(a) && AllDigits(b) && AllDigits(c)
    ensures Clean(a + ("." + (b + ("." + (c + tail))))) == a + (b + (c + Digits(tail)))
  {
    DigitsConcat(c, tail);
    DigitsOfDigits(c);
    DigitsAcrossSeparator(b, ".", c + tail);
    DigitsAcrossSeparator(a, ".", b + ("." + (c + tail)));
  }

  /** The check-digit suffix holds the digits after the ninth. */
  lemma CheckSuffixKeepsDigits(v: string)
    requires AllDigits(v) && |v| >= 9
    ensures Digits(CheckSuffix(v)) == v[9..]
  {
    DigitsOfDigits(v[9..]);
    if |v| > 9 {
      DigitsAcrossSeparator("", "-", v[9..]);
      assert "" + ("-" + v[9..]) == CheckSuffix(v);
    }
  }

  /** Removing separators from a formatted CPF gives back at most eleven of
      the input's digits. */
  lemma FormatKeepsDigits(value: string)
    ensures Clean(Format(value)) == Take(Clean(value), 11)
  {
    var v := Take(Clean(value), 11);
    assert AllDigits(v);
    if |v| >= 9 {
      CheckSuffixKeepsDigits(v);
      GroupsKeepDigits(v[..3], v[3..6], v[6..9], CheckSuffix(v));
      assert v[..3] + (v[3..6] + (v[6..9] + v[9..])) == v;
    } else {
      DigitsOfDigits(v);
    }
  }

  /** Formatting an already formatted CPF changes nothing. */
  lemma FormatIdempotent(value: string)
    ensures Format(Format(value)) == Format(value)
  {
    FormatKeepsDigits(value);
  }

  /** A digit string is its own cleaned form. */
  lemma CleanOfDigits(num: string)
    requires AllDigits(num)
    ensures Clean(num) == num
  {
    DigitsOfDigits(num);
  }

  /** Eleven digits format as `ddd.ddd.ddd-dd`. */
  lemma FormatOfElevenDigits(num: string)
    requires AllDigits(num) && |num| == 11
    ensures Format(num) == num[..3] + ("." + (num[3..6] + ("." + (num[6..9] + ("-" + num[9..])))))
  {
    CleanOfDigits(num);
  }

  /** The formatting example the front-end tests rely on. */
  lemma FormatExample(s: string)
    requires s == "52998224725"
    ensures Format(s) == "529.982.247-25"
  {
    calc {
      Format(s);
    == { FormatOfElevenDigits(s); }
      s[..3] + ("." + (s[3..6] + ("." + (s[6..9] + ("-" + s[9..])))));
    == { assert s[..3] == "529" && s[3..6] == "982" && s[6..9] == "247" && s[9..] == "25"; }
      "529.982.247-25";
    }
  }

  /** The digits of a number written as `ddd.ddd.ddd-dd`. */
  lemma CleanOfFormatted(a: string, b: string, c: string, d: string)
    requires AllDigits(a) && AllDigits(b) && AllDigits(c) && AllDigits(d)
    ensures Clean(a + ("." + (b + ("." + (c + ("-" + d)))))) == a + (b + (c + d))
  {
    DigitsOfDigits(d);
    DigitsAcrossSeparator("", "-", d);
    assert "" + ("-" + d) == "-" + d;
    GroupsKeepDigits(a, b, c, "-" + d);
  }

  /** The digits of the valid test number meet every condition of the
      rule: the weighted sums are 295 and 347, giving check digits 2 and 5. */
  lemma ValidNumber(n: string)
    requires n == "52998224725"
    ensures AllDigits(n) && |n| == 11 && !AllSame(n) && CheckDigitsMatch(n)
  {
    assert AllDigits(n);
    assert n[1] != n[0];
    assert WeightedSum(n, 9, 0) == 0;
    assert WeightedSum(n, 9, 1) == 50;
    assert WeightedSum(n, 9, 2) == 68;
    assert WeightedSum(n, 9, 3) == 140;
    assert WeightedSum(n, 9, 4) == 203;
    assert WeightedSum(n, 9, 5) == 251;
    assert WeightedSum(n, 9, 6) == 261;
    assert WeightedSum(n, 9, 7) == 269;
    assert WeightedSum(n, 9, 8) == 281;
    assert WeightedSum(n, 9, 9) == 295;
    assert WeightedSum(n, 10, 0) == 0;
    assert WeightedSum(n, 10, 1) == 55;
    assert WeightedSum(n, 10, 2) == 75;
    assert WeightedSum(n, 10, 3) == 156;
    assert WeightedSum(n, 10, 4) == 228;
    assert WeightedSum(n, 10, 5) == 284;
    assert WeightedSum(n, 10, 6) == 296;
    assert WeightedSum(n, 10, 7) == 306;
    assert WeightedSum(n, 10, 8) == 322;
    assert WeightedSum(n, 10, 9) == 343;
    assert WeightedSum(n, 10, 10) == 347;
  }

  /** The valid number used by the front-end tests (literals are passed in
      so that the verifier does not try to evaluate the cleaner on them). */
  lemma ValidExample(s: string)
    requires s == "529.982.247-25"
    ensures IsValid(s)
  {
    assert s == "529" + ("." + ("982" + ("." + ("247" + ("-" + "25")))));
    CleanOfFormatted("529", "982", "247", "25");
    ValidNumber(Clean(s));
  }

  /** The digits of the invalid test number: the first check digit agrees
      (sum 210, 2100 mod 11 = 10, read as 0) but the second does not (sum
      255, 2550 mod 11 = 9, against a final 0). */
  lemma InvalidNumber(n: string)
    requires n == "12345678900"
    ensures AllDigits(n) && |n| == 11 && !AllSame(n) && !CheckDigitsMatch(n)
  {
    assert AllDigits(n);
    assert n[1] != n[0];
    assert WeightedSum(n, 10, 0) == 0;
    assert WeightedSum(n, 10, 1) == 11;
    assert WeightedSum(n, 10, 2) == 31;
    assert WeightedSum(n, 10, 3) == 58;
    assert WeightedSum(n, 10, 4) == 90;
    assert WeightedSum(n, 10, 5) == 125;
    assert WeightedSum(n, 10, 6) == 161;
    assert WeightedSum(n, 10, 7) == 196;
    assert WeightedSum(n, 10, 8) == 228;
    assert WeightedSum(n, 10, 9) == 255;
    assert WeightedSum(n, 10, 10) == 255;
    assert DigitValue(n[10]) == 0;
  }

  /** The invalid number used by the front-end tests. */
  lemma InvalidExample(s: string)
    requires s == "12345678900"
    ensures !IsValid(s)
  {
    InvalidNumber(s);
    CleanOfDigits(s);
  }

  /** The invalid test number as the CPF mask leaves it in the field. */
  lemma InvalidFormattedExample(s: string)
    requires s == "123.456.789-00"
    ensures !IsValid(s)
  {
    assert s == "123" + ("." + ("456" + ("." + ("789" + ("-" + "00")))));
    CleanOfFormatted("123", "456", "789", "00");
    InvalidNumber(Clean(s));
  }

  /** Eleven ones, the digits of the formatted repeated-digit example. */
  lemma RepeatedOnes(n: string)
    requires n == "11111111111"
    ensures AllDigits(n) && |n| == 11 && AllSame(n)
  {
  }

  /** Repeated-digit numbers, formatted or not. */
  lemma RepeatedExamples(s: string, t: string)
    requires s == "111.111.111-11" && t == "00000000000"
    ensures !IsValid(s) && !IsValid(t)
  {
    RepeatedFormatted(s);
    RepeatedZeros(t);
  }

  lemma RepeatedFormatted(s: string)
    requires s == "111.111.111-11"
    ensures !IsValid(s)
  {
    assert s == "111" + ("." + ("111" + ("." + ("111" + ("-" + "11")))));
    CleanOfFormatted("111", "111", "111", "11");
    RepeatedOnes(Clean(s));
  }

  lemma RepeatedZeros(t: string)
    requires t == "00000000000"
    ensures !IsValid(t)
  {
    assert AllDigits(t) && AllSame(t);
    CleanOfDigits(t);
  }
}

=== FILE: enrollment.dfy ===
/** The current registration handler (`createEnrollment` in api/enrollment.js):
    the decision procedure that rejects a request, resumes or settles the
    buyer's earlier payment, or supersedes it with a new PENDING attempt and
    a new charge. The payment service's answers and the clock are parameters. */
module Enrollment {
  import opened Common
  import opened Text
  import opened Store
  import opened Payment
  import Pricing

  /** Upstream states in which a payment may still complete. */
  const InProgress: set<string> := {"pending", "in_process", "processing", "pending_waiting_transfer"}

  /** Upstream states in which a payment will never complete. */
  const Closed: set<string> := {"rejected", "cancelled", "refunded"}

  /** JavaScript truthiness of a stored payment reference. */
  predicate HasPaymentId(r: Record) {
    r.paymentId.Some? && r.paymentId.value != ""
  }

  /** What the handler decides about the buyer's earlier attempt: either it
      answers without a new charge, or it proceeds after the given writes. */
  datatype Prior = Settled(outcome: Outcome) | Proceed(writes: seq<Write>)

  /** The reconciliation of a non-PAID match `r`, stored at index `i`, with
      the payment service's view of its reference. */
  function ReconcilePrior(r: Record, i: nat, modality: string, lookup: Lookup): (p: Prior)
    ensures p.Proceed? ==> forall j :: 0 <= j < |p.writes| ==> p.writes[j] == Update(i, StatusPatch(Rejected))
    ensures p.Proceed? ==> |p.writes| <= 1
    ensures p.Settled? ==> p.outcome.charge == None && OnlyTargets(p.outcome.writes, i)
  {
    if !(r.status == Pending && HasPaymentId(r)) then Proceed([])
    else match lookup
      case LookupFailed => Proceed([])
      case LookupStatus(st) =>
        if st == "approved" then Settled(Outcome(AlreadyApproved, [Update(i, StatusPatch(Paid))], None))
        else if st in InProgress then
          if r.modality != "" && r.modality != modality then Proceed([Update(i, StatusPatch(Rejected))])
          else Settled(Outcome(Resume(r.paymentId.value, st, r.amount, r.modality), [], None))
        else if st in Closed then Proceed([Update(i, StatusPatch(Rejected))])
        else Proceed([])
  }

  /** `Number(installments) || 1`, accepted only as an integer in [1, 12]. */
  function ParseInstallments(n: JsNumber): (k: Option<int>)
    ensures k.Some? ==> 1 <= k.value <= 12
    ensures !Truthy(n) ==> k == Some(1)
    ensures Truthy(n) ==> (k.Some? <==> IsInteger(n) && 1.0 <= n.value <= 12.0)
    ensures Truthy(n) && k.Some? ==> k.value as real == n.value
  {
    var p := if Truthy(n) then n else Finite(1.0);
    if IsInteger(p) && 1.0 <= p.value <= 12.0 then Some(p.value.Floor) else None
  }

  /** The method fields of the charge; `None` when card installments are invalid. */
  function MethodFor(req: Request): (m: Option<MethodFields>)
    ensures req.paymentMethod == "cartao" && m.Some? ==>
              m.value.Card? && m.value.token == req.token && m.value.brand == req.brand
              && IsInteger(m.value.installments) && 1.0 <= m.value.installments.value <= 12.0
    ensures req.paymentMethod == "cartao" ==> (m.Some? <==> ParseInstallments(req.installments).Some?)
    ensures req.paymentMethod == "cartao" && m.Some? ==>
              m.value.installments == Finite(ParseInstallments(req.installments).value as real)
    ensures req.paymentMethod == "boleto" ==> m == Some(Boleto)
    ensures req.paymentMethod != "cartao" && req.paymentMethod != "boleto" ==> m == Some(Pix)
  {
    if req.paymentMethod == "cartao" then
      match ParseInstallments(req.installments)
      case None => None
      case Some(k) => Some(Card(req.token, Finite(k as real), req.brand))
    else if req.paymentMethod == "boleto" then Some(Boleto)
    else Some(Pix)
  }

  /** From the upserted attempt at `target` on: validate the installments,
      charge, link the reference, and mark a declined charge REJECTED. */
  function Charge(req: Request, cpf: string, price: int, target: nat, upsert: seq<Write>, reply: ChargeReply): (o: Outcome)
    ensures o.charge.Some? <==> MethodFor(req).Some?
    ensures o.charge.Some? ==> o.charge.value == ChargeRequest(req, cpf, price, target, MethodFor(req).value)
    ensures upsert <= o.writes
    ensures OnlyTargets(upsert, target) ==> OnlyTargets(o.writes, target)
    ensures MethodFor(req).None? ==> o.response == InvalidInstallments
    ensures MethodFor(req).Some? && reply.ChargeFailed? ==> o.response == ServerError
    ensures MethodFor(req).Some? && reply.Charged? && reply.status == "rejected" ==> o.response == Declined
    ensures MethodFor(req).Some? && reply.Charged? && reply.status != "rejected" ==>
              o.response == Created(reply.id, reply.status, price)
  {
    match MethodFor(req)
    case None => Outcome(InvalidInstallments, upsert, None)
    case Some(m) =>
      var p := ChargeRequest(req, cpf, price, target, m);
      match reply
      case ChargeFailed => Outcome(ServerError, upsert, Some(p))
      case Charged(id, st) =>
        var linked := upsert + [Update(target, LinkPatch(id))];
        if st == "rejected" then Outcome(Declined, linked + [Update(target, StatusPatch(Rejected))], Some(p))
        else Outcome(Created(id, st, price), linked, Some(p))
  }

  /** The price charged for a request against table `t` at time `now`. */
  function PriceFor(t: Table, req: Request, now: int): nat {
    Pricing.Price(req.modality, CountPaid(t), now)
  }

  /** The first record sharing the request's email or digits-only CPF. */
  function MatchOf(t: Table, req: Request): Option<nat> {
    FindFirst(t, IdentityMatch(req.email, Digits(req.cpf)))
  }

  /** `createEnrollment`. `lookup` is the payment service's answer about the
      match's stored reference (consulted only for a PENDING match that has
      one); `reply` is its answer to the new charge (consulted only when a
      charge is made). */
  function Register(t: Table, req: Request, now: int, lookup: Lookup, reply: ChargeReply): (o: Outcome)
    ensures req.modality == "" <==> o.response == InvalidModality
    ensures o.response in {InvalidModality, AlreadyPaid, AlreadyApproved} || o.response.Resume? ==> o.charge == None
    ensures o.response in {InvalidModality, AlreadyPaid} || o.response.Resume? ==> o.writes == []
    ensures o.charge.Some? ==> o.charge.value.amount == PriceFor(t, req, now)
    ensures o.charge.Some? ==> o.charge.value.payerCpf == Digits(req.cpf) && o.charge.value.payerEmail == req.email
    ensures o.charge.Some? ==>
              o.charge.value.metadata == Metadata(req.name, req.email, Digits(req.cpf), req.phone, req.modality, Target(t, req))
    ensures OnlyTargets(o.writes, Target(t, req))
    ensures o.writes != [] && MatchOf(t, req).Some? ==> t[MatchOf(t, req).value].status != Paid
  {
    if req.modality == "" then Outcome(InvalidModality, [], None)
    else
      var price := PriceFor(t, req, now);
      var cpf := Digits(req.cpf);
      match MatchOf(t, req)
      case None => Charge(req, cpf, price, |t|, [Create(AttemptRecord(req, cpf, price))], reply)
      case Some(i) =>
        if t[i].status == Paid then Outcome(AlreadyPaid, [], None)
        else match ReconcilePrior(t[i], i, req.modality, lookup)
          case Settled(o) => o
          case Proceed(ws) => Charge(req, cpf, price, i, ws + [Update(i, AttemptPatch(req, cpf, price))], reply)
  }

  /** The index the attempt is written to: the match, or a new last record. */
  function Target(t: Table, req: Request): nat {
    match MatchOf(t, req)
    case None => |t|
    case Some(i) => i
  }

  // ---------------------------------------------------------------------
  // Properties

  /** Conflict exactly when the first identity match is PAID; nothing is
      written and nothing is charged then. */
  lemma ConflictIffPaid(t: Table, req: Request, now: int, lookup: Lookup, reply: ChargeReply)
    ensures var o := Register(t, req, now, lookup, reply);
            o.response == AlreadyPaid <==>
              req.modality != "" && MatchOf(t, req).Some? && t[MatchOf(t, req).value].status == Paid
  {
  }

  /** No request changes a PAID record, and none changes any record other
      than the one the attempt is written to. */
  lemma PaidRecordsUntouched(t: Table, req: Request, now: int, lookup: Lookup, reply: ChargeReply)
    ensures var t' := Apply(t, Register(t, req, now, lookup, reply).writes);
            && |t'| >= |t|
            && (forall k :: 0 <= k < |t| && t[k].status == Paid ==> t'[k] == t[k])
            && (forall k :: 0 <= k < |t| && k != Target(t, req) ==> t'[k] == t[k])
  {
    var o := Register(t, req, now, lookup, reply);
    var target := Target(t, req);
    forall k | 0 <= k < |t| && (t[k].status == Paid || k != target)
      ensures k < |Apply(t, o.writes)| && Apply(t, o.writes)[k] == t[k]
    {
      if k == target {
        assert o.writes == [];
      } else {
        ApplyKeepsUntargeted(t, o.writes, k);
      }
    }
    ApplyGrows(t, o.writes);
  }

  /** The table after the charge step, given the table `tu` after the upsert:
      a created charge links its reference, a declined one also marks the
      attempt REJECTED, and the other answers leave `tu` as it was. */
  lemma ChargeState(t: Table, req: Request, cpf: string, price: int, k: nat, upsert: seq<Write>, reply: ChargeReply)
    requires k < |Apply(t, upsert)|
    ensures var o := Charge(req, cpf, price, k, upsert, reply);
            var tu := Apply(t, upsert);
            var t' := Apply(t, o.writes);
            && (o.response.Created? || o.response in {Declined, InvalidInstallments, ServerError})
            && (o.response.Created? ==>
                  reply.Charged? && o.response == Created(reply.id, reply.status, price) && reply.status != "rejected"
                  && t' == tu[k := tu[k].(paymentId := Some(reply.id))])
            && (o.response == Declined ==>
                  reply.Charged? && reply.status == "rejected"
                  && t' == tu[k := tu[k].(paymentId := Some(reply.id), status := Rejected)])
            && (o.response in {InvalidInstallments, ServerError} ==> t' == tu)
            && (o.response == InvalidInstallments <==> MethodFor(req).None?)
  {
    var o := Charge(req, cpf, price, k, upsert, reply);
    if MethodFor(req).None? || reply.ChargeFailed? {
      assert o.writes == upsert;
    } else {
      LinkWrites(t, upsert, k, reply.id);
    }
  }

  /** The link, and the REJECTED mark after it, applied after the upsert. */
  lemma LinkWrites(t: Table, upsert: seq<Write>, k: nat, id: string)
    requires k < |Apply(t, upsert)|
    ensures var tu := Apply(t, upsert);
            var linked := upsert + [Update(k, LinkPatch(id))];
            && Apply(t, linked) == tu[k := tu[k].(paymentId := Some(id))]
            && Apply(t, linked + [Update(k, StatusPatch(Rejected))])
               == tu[k := tu[k].(paymentId := Some(id), status := Rejected)]
  {
    var tu := Apply(t, upsert);
    var link := Update(k, LinkPatch(id));
    var linked := upsert + [link];
    ApplyConcat(t, upsert, [link]);
    ApplyOne(tu, link);
    var tl := Apply(t, linked);
    assert tl == tu[k := tu[k].(paymentId := Some(id))];
    var reject := Update(k, StatusPatch(Rejected));
    ApplyConcat(t, linked, [reject]);
    ApplyOne(tl, reject);
  }

  /** The upsert of an existing match: after at most one REJECTED mark, every
      field but the payment reference is replaced by the attempt data. */
  lemma UpsertState(t: Table, i: nat, ws: seq<Write>, req: Request, cpf: string, price: int)
    requires i < |t|
    requires |ws| <= 1 && forall j :: 0 <= j < |ws| ==> ws[j] == Update(i, StatusPatch(Rejected))
    ensures Apply(t, ws + [Update(i, AttemptPatch(req, cpf, price))])
            == t[i := AttemptRecord(req, cpf, price).(paymentId := t[i].paymentId)]
  {
    var up := Update(i, AttemptPatch(req, cpf, price));
    ApplyConcat(t, ws, [up]);
    if |ws| == 1 {
      assert ws == [Update(i, StatusPatch(Rejected))];
      SetStatus(t, i, Rejected);
    }
    ApplyOne(Apply(t, ws), up);
  }

  /** A charge the payment service answered ends up in its target record:
      the attempt data with the new reference, REJECTED (and answered 400)
      when declined, PENDING (and answered 201 with the reply's id)
      otherwise. Without a match exactly one record is added; otherwise none
      is. */
  lemma AttemptRecorded(t: Table, req: Request, now: int, lookup: Lookup, reply: ChargeReply)
    requires Register(t, req, now, lookup, reply).charge.Some? && reply.Charged?
    ensures var o := Register(t, req, now, lookup, reply);
            var t' := Apply(t, o.writes);
            var k := Target(t, req);
            var declined := reply.status == "rejected";
            && o.response == (if declined then Declined else Created(reply.id, reply.status, PriceFor(t, req, now)))
            && |t'| == |t| + (if MatchOf(t, req).None? then 1 else 0)
            && k < |t'|
            && t'[k] == AttemptRecord(req, Digits(req.cpf), PriceFor(t, req, now)).(
                          paymentId := Some(reply.id),
                          status := if declined then Rejected else Pending)
  {
    var price := PriceFor(t, req, now);
    var cpf := Digits(req.cpf);
    match MatchOf(t, req)
    case None =>
      var upsert := [Create(AttemptRecord(req, cpf, price))];
      ApplyOne(t, upsert[0]);
      ChargeState(t, req, cpf, price, |t|, upsert, reply);
    case Some(i) =>
      var ws := ReconcilePrior(t[i], i, req.modality, lookup).writes;
      var upsert := ws + [Update(i, AttemptPatch(req, cpf, price))];
      UpsertState(t, i, ws, req, cpf, price);
      ChargeState(t, req, cpf, price, i, upsert, reply);
  }

  /** Invalid card installments are refused after the attempt was upserted
      as PENDING, and nothing is charged: the attempt record stays, with the
      match's earlier reference (none for a new buyer). */
  lemma InstallmentsChecked(t: Table, req: Request, now: int, lookup: Lookup, reply: ChargeReply)
    requires Register(t, req, now, lookup, reply).response == InvalidInstallments
    ensures var o := Register(t, req, now, lookup, reply);
            var t' := Apply(t, o.writes);
            var k := Target(t, req);
            var m := MatchOf(t, req);
            var before := if m.Some? then t[m.value].paymentId else None;
            && o.charge == None
            && req.paymentMethod == "cartao" && ParseInstallments(req.installments).None?
            && |t'| == |t| + (if m.None? then 1 else 0)
            && k < |t'|
            && t'[k] == AttemptRecord(req, Digits(req.cpf), PriceFor(t, req, now)).(paymentId := before)
  {
    var price := PriceFor(t, req, now);
    var cpf := Digits(req.cpf);
    match MatchOf(t, req)
    case None =>
      var upsert := [Create(AttemptRecord(req, cpf, price))];
      ApplyOne(t, upsert[0]);
      ChargeState(t, req, cpf, price, |t|, upsert, reply);
    case Some(i) =>
      var ws := ReconcilePrior(t[i], i, req.modality, lookup).writes;
      var upsert := ws + [Update(i, AttemptPatch(req, cpf, price))];
      UpsertState(t, i, ws, req, cpf, price);
      ChargeState(t, req, cpf, price, i, upsert, reply);
  }

  /** A charge call that fails answers 500 after the attempt was upserted:
      the attempt record stays PENDING, with the match's earlier reference
      (none for a new buyer), and nothing links a new one. */
  lemma FailedChargeKeepsAttempt(t: Table, req: Request, now: int, lookup: Lookup, reply: ChargeReply)
    requires Register(t, req, now, lookup, reply).response == ServerError
    ensures var o := Register(t, req, now, lookup, reply);
            var t' := Apply(t, o.writes);
            var k := Target(t, req);
            var m := MatchOf(t, req);
            var before := if m.Some? then t[m.value].paymentId else None;
            && reply.ChargeFailed? && o.charge.Some?
            && |t'| == |t| + (if m.None? then 1 else 0)
            && k < |t'|
            && t'[k] == AttemptRecord(req, Digits(req.cpf), PriceFor(t, req, now)).(paymentId := before)
  {
    var price := PriceFor(t, req, now);
    var cpf := Digits(req.cpf);
    match MatchOf(t, req)
    case None =>
      var upsert := [Create(AttemptRecord(req, cpf, price))];
      ApplyOne(t, upsert[0]);
      ChargeState(t, req, cpf, price, |t|, upsert, reply);
    case Some(i) =>
      var ws := ReconcilePrior(t[i], i, req.modality, lookup).writes;
      var upsert := ws + [Update(i, AttemptPatch(req, cpf, price))];
      UpsertState(t, i, ws, req, cpf, price);
      ChargeState(t, req, cpf, price, i, upsert, reply);
  }

  /** A PENDING match whose reference the payment service reports approved
      becomes PAID; nothing else changes and nothing is charged. */
  lemma ApprovedPriorSettles(t: Table, req: Request, now: int, reply: ChargeReply, i: nat)
    requires req.modality != "" && MatchOf(t, req) == Some(i)
    requires t[i].status == Pending && HasPaymentId(t[i])
    ensures var o := Register(t, req, now, LookupStatus("approved"), reply);
            && o.response == AlreadyApproved
            && o.charge == None
            && Apply(t, o.writes) == t[i := t[i].(status := Paid)]
  {
    SetStatus(t, i, Paid);
  }

  /** The handler resumes exactly when the match is PENDING with a reference
      that is still in progress upstream and the modality is unchanged (or
      was never stored); it then returns the stored reference and the stored
      amount, writes nothing and charges nothing. */
  lemma ResumeIff(t: Table, req: Request, now: int, lookup: Lookup, reply: ChargeReply)
    ensures var o := Register(t, req, now, lookup, reply);
            var m := MatchOf(t, req);
            o.response.Resume? <==>
              && req.modality != ""
              && m.Some? && t[m.value].status == Pending && HasPaymentId(t[m.value])
              && lookup.LookupStatus? && lookup.status in InProgress
              && (t[m.value].modality == "" || t[m.value].modality == req.modality)
    ensures var o := Register(t, req, now, lookup, reply);
            var m := MatchOf(t, req);
            o.response.Resume? ==>
              && o.response == Resume(t[m.value].paymentId.value, lookup.status, t[m.value].amount, t[m.value].modality)
              && o.writes == [] && o.charge == None
  {
  }

  /** A modality change while the earlier payment is in progress supersedes
      it: the match is first marked REJECTED, then a new attempt is charged
      (unless the card installments are invalid). */
  lemma ModalityChangeSupersedes(t: Table, req: Request, now: int, st: string, reply: ChargeReply, i: nat)
    requires req.modality != "" && MatchOf(t, req) == Some(i)
    requires t[i].status == Pending && HasPaymentId(t[i])
    requires st in InProgress && t[i].modality != "" && t[i].modality != req.modality
    ensures var o := Register(t, req, now, LookupStatus(st), reply);
            && |o.writes| >= 2
            && o.writes[0] == Update(i, StatusPatch(Rejected))
            && o.writes[1] == Update(i, AttemptPatch(req, Digits(req.cpf), PriceFor(t, req, now)))
            && (o.charge.Some? <==> MethodFor(req).Some?)
  {
    var o := Register(t, req, now, LookupStatus(st), reply);
    var upsert := [Update(i, StatusPatch(Rejected)), Update(i, AttemptPatch(req, Digits(req.cpf), PriceFor(t, req, now)))];
    assert upsert <= o.writes;
  }

  /** An earlier payment that was rejected, cancelled or refunded upstream
      is marked REJECTED before the new attempt overwrites it. */
  lemma ClosedPriorSuperseded(t: Table, req: Request, now: int, st: string, reply: ChargeReply, i: nat)
    requires req.modality != "" && MatchOf(t, req) == Some(i)
    requires t[i].status == Pending && HasPaymentId(t[i])
    requires st in Closed
    ensures var o := Register(t, req, now, LookupStatus(st), reply);
            && |o.writes| >= 2
            && o.writes[0] == Update(i, StatusPatch(Rejected))
            && o.writes[1] == Update(i, AttemptPatch(req, Digits(req.cpf), PriceFor(t, req, now)))
  {
    var o := Register(t, req, now, LookupStatus(st), reply);
    var upsert := [Update(i, StatusPatch(Rejected)), Update(i, AttemptPatch(req, Digits(req.cpf), PriceFor(t, req, now)))];
    assert upsert <= o.writes;
  }

  /** A failed lookup, or an upstream state the handler does not recognise,
      does not block the buyer: the match is overwritten straight away. */
  lemma UnknownPriorOverwritten(t: Table, req: Request, now: int, lookup: Lookup, reply: ChargeReply, i: nat)
    requires req.modality != "" && MatchOf(t, req) == Some(i) && t[i].status != Paid
    requires lookup.LookupFailed? ||
             (lookup.status != "approved" && lookup.status !in InProgress && lookup.status !in Closed)
    ensures var o := Register(t, req, now, lookup, reply);
            && |o.writes| >= 1
            && o.writes[0] == Update(i, AttemptPatch(req, Digits(req.cpf), PriceFor(t, req, now)))
  {
    var o := Register(t, req, now, lookup, reply);
    var upsert := [Update(i, AttemptPatch(req, Digits(req.cpf), PriceFor(t, req, now)))];
    assert [] + upsert == upsert;
    assert upsert <= o.writes;
  }

  /** The earlier payment is reported approved exactly when there is a
      modality and the match is PENDING with a reference that the payment
      service reports approved; no other match consults the lookup. */
  lemma AlreadyApprovedIff(t: Table, req: Request, now: int, lookup: Lookup, reply: ChargeReply)
    ensures var m := MatchOf(t, req);
            Register(t, req, now, lookup, reply).response == AlreadyApproved <==>
              && req.modality != ""
              && m.Some? && t[m.value].status == Pending && HasPaymentId(t[m.value])
              && lookup == LookupStatus("approved")
  {
  }

  /** A request that gets past the answers without a charge (no modality,
      PAID, approved earlier payment, resumed payment) is charged exactly
      when its method fields are valid. */
  lemma RegisterChargesPastGuards(t: Table, req: Request, now: int, lookup: Lookup, reply: ChargeReply)
    ensures var o := Register(t, req, now, lookup, reply);
            !(o.response in {InvalidModality, AlreadyPaid, AlreadyApproved} || o.response.Resume?) ==>
              (o.charge.Some? <==> MethodFor(req).Some?)
  {
  }

  /** A non-PAID match without a reference still in play (not PENDING, or
      PENDING without a reference) is overwritten straight away, whatever
      the payment service would say: no earlier payment is consulted. */
  lemma NoReferenceOverwritten(t: Table, req: Request, now: int, lookup: Lookup, reply: ChargeReply, i: nat)
    requires req.modality != "" && MatchOf(t, req) == Some(i) && t[i].status != Paid
    requires !(t[i].status == Pending && HasPaymentId(t[i]))
    ensures var o := Register(t, req, now, lookup, reply);
            && |o.writes| >= 1
            && o.writes[0] == Update(i, AttemptPatch(req, Digits(req.cpf), PriceFor(t, req, now)))
            && (o.charge.Some? <==> MethodFor(req).Some?)
            && o.response != AlreadyApproved && !o.response.Resume?
  {
    var o := Register(t, req, now, lookup, reply);
    var upsert := [Update(i, AttemptPatch(req, Digits(req.cpf), PriceFor(t, req, now)))];
    assert [] + upsert == upsert;
    assert upsert <= o.writes;
  }

  /** If `k` holds a matching record and none before it matches, the
      first-match lookup returns `k`. */
  lemma FindFirstAt(t: Table, p: Record -> bool, k: nat)
    requires k < |t| && p(t[k])
    requires forall j :: 0 <= j < k ==> !p(t[j])
    ensures FindFirst(t, p) == Some(k)
  {
  }

  /** Retrying while the first charge is still in progress upstream returns
      that charge instead of making a second one: after a request created
      charge `id`, the same request (at any later time) resumes `id` with
      the amount first charged, writes nothing and charges nothing. */
  lemma RetryResumes(t: Table, req: Request, now: int, lookup: Lookup, reply: ChargeReply,
                     now2: int, st2: string, reply2: ChargeReply)
    requires Register(t, req, now, lookup, reply).response.Created?
    requires reply.Charged? && reply.id != ""
    requires st2 in InProgress
    ensures var t1 := Apply(t, Register(t, req, now, lookup, reply).writes);
            var o2 := Register(t1, req, now2, LookupStatus(st2), reply2);
            && o2.response == Resume(reply.id, st2, PriceFor(t, req, now), req.modality)
            && o2.writes == []
            && o2.charge == None
  {
    var t1 := Apply(t, Register(t, req, now, lookup, reply).writes);
    var k := Target(t, req);
    var p := IdentityMatch(req.email, Digits(req.cpf));
    AttemptRecorded(t, req, now, lookup, reply);
    PaidRecordsUntouched(t, req, now, lookup, reply);
    assert p(t1[k]);
    forall j | 0 <= j < k ensures !p(t1[j]) {
      assert t1[j] == t[j];
    }
    FindFirstAt(t1, p, k);
    ResumeIff(t1, req, now2, LookupStatus(st2), reply2);
  }
}

=== FILE: legacy.dfy ===
/** The older registration handler (`createEnrollment` in
    api/src/controllers/enrollmentController.js): the same price, upsert and
    charge as the current one, but without the PAID guard, without the
    reconciliation of an earlier payment, without the installments check,
    and without marking a declined attempt REJECTED. */
module Legacy {
  import opened Common
  import opened Text
  import opened Store
  import opened Payment
  import opened Enrollment
  import Pricing

  /** The method fields as the older handler sends them: card installments,
      token and brand are forwarded unchanged. */
  function LegacyMethod(req: Request): (m: MethodFields)
    ensures req.paymentMethod == "cartao" <==> m.Card?
    ensures m.Card? ==> m == Card(req.token, req.installments, req.brand)
    ensures req.paymentMethod == "boleto" ==> MethodId(m) == "bolbradesco"
    ensures req.paymentMethod != "cartao" && req.paymentMethod != "boleto" ==> MethodId(m) == "pix"
  {
    if req.paymentMethod == "cartao" then Card(req.token, req.installments, req.brand)
    else if req.paymentMethod == "boleto" then Boleto
    else Pix
  }

  /** The older `createEnrollment`. `reply` is the payment service's answer
      to the charge. */
  function LegacyRegister(t: Table, req: Request, now: int, reply: ChargeReply): (o: Outcome)
    ensures req.modality == "" <==> o.response == InvalidModality
    ensures req.modality == "" ==> o.writes == [] && o.charge == None
    ensures req.modality != "" ==>
              && o.charge.Some?
              && o.charge.value.amount == PriceFor(t, req, now)
              && o.charge.value.fields == LegacyMethod(req)
              && (o.response.Created? || o.response in {Declined, ServerError})
    ensures OnlyTargets(o.writes, Target(t, req))
    ensures req.modality != "" && reply.ChargeFailed? ==> o.response == ServerError
    ensures req.modality != "" && reply.Charged? && reply.status == "rejected" ==> o.response == Declined
    ensures req.modality != "" && reply.Charged? && reply.status != "rejected" ==>
              o.response == Created(reply.id, reply.status, PriceFor(t, req, now))
  {
    if req.modality == "" then Outcome(InvalidModality, [], None)
    else
      var price := PriceFor(t, req, now);
      var cpf := Digits(req.cpf);
      var target := Target(t, req);
      var upsert := match MatchOf(t, req)
        case None => [Create(AttemptRecord(req, cpf, price))]
        case Some(i) => [Update(i, AttemptPatch(req, cpf, price))];
      var p := ChargeRequest(req, cpf, price, target, LegacyMethod(req));
      match reply
      case ChargeFailed => Outcome(ServerError, upsert, Some(p))
      case Charged(id, st) =>
        var linked := upsert + [Update(target, LinkPatch(id))];
        Outcome(if st == "rejected" then Declined else Created(id, st, price), linked, Some(p))
  }

  /** The table after the upsert, and after the link when there was a charge. */
  lemma LegacyState(t: Table, req: Request, now: int, reply: ChargeReply)
    requires req.modality != ""
    ensures var o := LegacyRegister(t, req, now, reply);
            var t' := Apply(t, o.writes);
            var k := Target(t, req);
            var m := MatchOf(t, req);
            var attempt := AttemptRecord(req, Digits(req.cpf), PriceFor(t, req, now));
            var before := if m.Some? then t[m.value].paymentId else None;
            && |t'| == |t| + (if m.None? then 1 else 0)
            && k < |t'|
            && t'[k] == attempt.(paymentId := if reply.Charged? then Some(reply.id) else before)
  {
    var o := LegacyRegister(t, req, now, reply);
    var price := PriceFor(t, req, now);
    var cpf := Digits(req.cpf);
    var k := Target(t, req);
    var up := match MatchOf(t, req)
      case None => Create(AttemptRecord(req, cpf, price))
      case Some(i) => Update(i, AttemptPatch(req, cpf, price));
    ApplyOne(t, up);
    if reply.Charged? {
      var link := Update(k, LinkPatch(reply.id));
      ApplyConcat(t, [up], [link]);
      ApplyOne(Apply(t, [up]), link);
    }
  }

  /** The older handler overwrites a PAID match with a PENDING attempt and
      charges the buyer again. */
  lemma LegacyOverwritesPaid(t: Table, req: Request, now: int, reply: ChargeReply, i: nat)
    requires req.modality != "" && MatchOf(t, req) == Some(i) && t[i].status == Paid
    ensures var o := LegacyRegister(t, req, now, reply);
            && o.response != AlreadyPaid
            && o.charge.Some?
            && i < |Apply(t, o.writes)| && Apply(t, o.writes)[i].status == Pending
  {
    LegacyState(t, req, now, reply);
  }

  /** A declined charge leaves the attempt PENDING, linked to the declined
      reference. */
  lemma LegacyDeclinedStaysPending(t: Table, req: Request, now: int, reply: ChargeReply)
    requires LegacyRegister(t, req, now, reply).response == Declined
    ensures var t' := Apply(t, LegacyRegister(t, req, now, reply).writes);
            var k := Target(t, req);
            && reply.Charged? && reply.status == "rejected"
            && k < |t'| && t'[k].status == Pending && t'[k].paymentId == Some(reply.id)
  {
    LegacyState(t, req, now, reply);
  }

  /** Card installments reach the payment service unchecked: a value the
      current handler refuses is charged by the older one. */
  lemma LegacyForwardsInstallments(t: Table, req: Request, now: int, lookup: Lookup, reply: ChargeReply)
    requires req.modality != "" && req.paymentMethod == "cartao"
    requires ParseInstallments(req.installments).None?
    requires MatchOf(t, req).None?
    ensures LegacyRegister(t, req, now, reply).charge.value.fields.installments == req.installments
    ensures Register(t, req, now, lookup, reply).response == InvalidInstallments
    ensures Register(t, req, now, lookup, reply).charge == None
  {
  }

  /** Both revisions charge the same tier price for the same table and
      time, and that price is one of the six tier prices. */
  lemma RevisionsChargeSamePrice(t: Table, req: Request, now: int, lookup: Lookup, reply: ChargeReply)
    requires Register(t, req, now, lookup, reply).charge.Some?
    ensures var a := Register(t, req, now, lookup, reply).charge.value.amount;
            && a == LegacyRegister(t, req, now, reply).charge.value.amount
            && a == Pricing.Price(req.modality, CountPaid(t), now)
            && a in {79900, 59900, 100000, 70000, 192000, 152000}
  {
  }

  /** Where the current handler has nothing to reconcile (no match, or a
      match that is neither PAID nor PENDING with a reference), pays by pix
      or boleto, and the charge is not declined, both revisions do exactly
      the same thing. */
  lemma RevisionsAgree(t: Table, req: Request, now: int, lookup: Lookup, reply: ChargeReply)
    requires req.paymentMethod != "cartao"
    requires !(reply.Charged? && reply.status == "rejected")
    requires var m := MatchOf(t, req);
             m.None? || (t[m.value].status != Paid && !(t[m.value].status == Pending && HasPaymentId(t[m.value])))
    ensures Register(t, req, now, lookup, reply) == LegacyRegister(t, req, now, reply)
  {
    if req.modality != "" && MatchOf(t, req).Some? {
      var i := MatchOf(t, req).value;
      var ws := ReconcilePrior(t[i], i, req.modality, lookup).writes;
      assert ws == [];
      assert ws + [Update(i, AttemptPatch(req, Digits(req.cpf), PriceFor(t, req, now)))]
          == [Update(i, AttemptPatch(req, Digits(req.cpf), PriceFor(t, req, now)))];
    }
  }
}

=== FILE: masks.dfy ===
/** The pure input masks of the checkout form (public/scripts/cadastro.js):
    phone, card number and card expiry, and the expiry check made at submit. */
module Masks {
  import opened Common
  import opened Text

  // ---------------------------------------------------------------------
  // Phone: `(DD) NNNN-NNNN` or `(DD) NNNNN-NNNN`

  /** The phone mask: at most 11 digits; two or fewer are shown raw, the
      rest becomes `(DD) body`, with a hyphen before the last four digits
      of a 5-7 digit body and after the fifth digit of an 8-9 digit body. */
  function PhoneMask(value: string): (r: string)
    ensures var v := Take(Digits(value), 11);
            |v| <= 2 ==> r == v
    ensures var v := Take(Digits(value), 11);
            |v| > 2 ==> && |r| == |v| + (if |v| <= 6 then 3 else 4)
                        && r[0] == '(' && r[3] == ')' && r[4] == ' '
  {
    var v := Take(Digits(value), 11);
    if |v| <= 2 then v
    else "(" + (v[..2] + (") " + PhoneBody(v[2..])))
  }

  /** What follows `(DD) ` for a body of at most nine digits. */
  function PhoneBody(rest: string): (r: string)
    requires |rest| <= 9
    ensures |rest| <= 4 ==> r == rest
    ensures 4 < |rest| ==> |r| == |rest| + 1
    ensures 4 < |rest| <= 7 ==> r[|rest| - 4] == '-'
    ensures 7 < |rest| ==> r[5] == '-'
  {
    if |rest| <= 4 then rest
    else if |rest| <= 7 then rest[..|rest| - 4] + ("-" + rest[|rest| - 4..])
    else rest[..5] + ("-" + rest[5..])
  }

  /** A hyphen inserted into a digit string is dropped by the cleaner. */
  lemma HyphenKeepsDigits(x: string, k: nat)
    requires AllDigits(x) && k <= |x|
    ensures Digits(x[..k] + ("-" + x[k..])) == x
  {
    DigitsOfDigits(x[k..]);
    DigitsAcrossSeparator(x[..k], "-", x[k..]);
    assert x[..k] + x[k..] == x;
  }

  /** The phone body keeps its digits: the hyphen is the only thing added. */
  lemma PhoneBodyKeepsDigits(rest: string)
    requires AllDigits(rest) && |rest| <= 9
    ensures Digits(PhoneBody(rest)) == rest
  {
    if |rest| <= 4 {
      DigitsOfDigits(rest);
    } else if |rest| <= 7 {
      HyphenKeepsDigits(rest, |rest| - 4);
    } else {
      HyphenKeepsDigits(rest, 5);
    }
  }

  /** The digits of the masked phone are the first eleven digits typed. */
  lemma PhoneMaskKeepsDigits(value: string)
    ensures Digits(PhoneMask(value)) == Take(Digits(value), 11)
  {
    var v := Take(Digits(value), 11);
    assert AllDigits(v);
    if |v| <= 2 {
      DigitsOfDigits(v);
    } else {
      var body := PhoneBody(v[2..]);
      PhoneBodyKeepsDigits(v[2..]);
      DigitsAcrossSeparator(v[..2], ") ", body);
      DigitsAcrossSeparator("", "(", v[..2] + (") " + body));
      assert "" + ("(" + (v[..2] + (") " + body))) == PhoneMask(value);
      assert v[..2] + v[2..] == v;
    }
  }

  /** Masking a masked phone number changes nothing. */
  lemma PhoneMaskIdempotent(value: string)
    ensures PhoneMask(PhoneMask(value)) == PhoneMask(value)
  {
    PhoneMaskKeepsDigits(value);
  }

  /** Eleven digits mask as `(DD) NNNNN-NNNN`. */
  lemma PhoneMaskOfEleven(v: string)
    requires AllDigits(v) && |v| == 11
    ensures PhoneMask(v) == "(" + (v[..2] + (") " + (v[2..7] + ("-" + v[7..]))))
  {
    DigitsOfDigits(v);
    assert v[2..][..5] == v[2..7] && v[2..][5..] == v[7..];
  }

  /** The phone example the front-end tests rely on. */
  lemma PhoneExample(s: string)
    requires s == "11987654321"
    ensures PhoneMask(s) == "(11) 98765-4321"
  {
    calc {
      PhoneMask(s);
    == { assert AllDigits(s); PhoneMaskOfEleven(s); }
      "(" + (s[..2] + (") " + (s[2..7] + ("-" + s[7..]))));
    == { assert s[..2] == "11" && s[2..7] == "98765" && s[7..] == "4321"; }
      "(11) 98765-4321";
    }
  }

  // ---------------------------------------------------------------------
  // Card number: groups of four separated by spaces

  /** `d.match(/.{1,4}/g).join(' ')`: consecutive groups of four characters
      (the last may be shorter), joined by single spaces. Position i of the
      result is a space exactly when i mod 5 = 4; any other position holds
      character i - i/5 of the input. */
  function Group4(d: string): (r: string)
    ensures |d| == 0 ==> r == ""
    ensures |d| > 0 ==> |r| == |d| + (|d| - 1) / 4
  {
    if |d| <= 4 then d else d[..4] + (" " + Group4(d[4..]))
  }

  /** Position `i` of the grouped string is a space exactly when i mod 5 = 4;
      any other position holds character i - i/5 of the input. */
  lemma {:induction false} Group4Position(d: string, i: nat)
    requires AllDigits(d)
    requires i < |Group4(d)|
    ensures Group4(d)[i] == ' ' <==> i % 5 == 4
    ensures i % 5 != 4 ==> i - i / 5 < |d| && Group4(d)[i] == d[i - i / 5]
  {
    if |d| > 4 {
      var g := Group4(d[4..]);
      if i >= 5 {
        Group4Position(d[4..], i - 5);
        assert Group4(d)[i] == g[i - 5];
        assert (i - 5) % 5 == i % 5 && (i - 5) / 5 == i / 5 - 1;
      }
    }
  }

  /** The card-number mask: digits only, at most sixteen, grouped by four. */
  function CardNumberMask(value: string): (r: string)
    ensures |r| <= 19
    ensures forall i :: 0 <= i < |r| ==> (r[i] == ' ' <==> i % 5 == 4)
  {
    var d := Take(Digits(value), 16);
    if |d| > 0 then Group4Spaces(d); Group4(d) else d
  }

  /** The spaces of a grouped digit string sit exactly at every fifth position. */
  lemma Group4Spaces(d: string)
    requires AllDigits(d)
    ensures forall i :: 0 <= i < |Group4(d)| ==> (Group4(d)[i] == ' ' <==> i % 5 == 4)
  {
    forall i | 0 <= i < |Group4(d)| ensures Group4(d)[i] == ' ' <==> i % 5 == 4 {
      Group4Position(d, i);
    }
  }

  /** Removing the spaces from a grouped digit string gives the digits back. */
  lemma {:induction false} Group4Strip(d: string)
    requires AllDigits(d)
    ensures StripWhitespace(Group4(d)) == d
    ensures Digits(Group4(d)) == d
  {
    if |d| <= 4 {
      StripOfDigits(d);
      DigitsOfDigits(d);
    } else {
      Group4Strip(d[4..]);
      var g := Group4(d[4..]);
      StripConcat(d[..4], " " + g);
      StripConcat(" ", g);
      StripOfDigits(d[..4]);
      assert StripWhitespace(" ") == "";
      DigitsAcrossSeparator(d[..4], " ", g);
      assert d[..4] + d[4..] == d;
    }
  }

  /** The masked card number, with its spaces removed as the submit handler
      does, is the first sixteen digits typed. */
  lemma CardNumberMaskKeepsDigits(value: string)
    ensures StripWhitespace(CardNumberMask(value)) == Take(Digits(value), 16)
    ensures Digits(CardNumberMask(value)) == Take(Digits(value), 16)
  {
    Group4Strip(Take(Digits(value), 16));
  }

  /** Masking a masked card number changes nothing. */
  lemma CardNumberMaskIdempotent(value: string)
    ensures CardNumberMask(CardNumberMask(value)) == CardNumberMask(value)
  {
    CardNumberMaskKeepsDigits(value);
  }

  /** `\s` of a JavaScript regular expression. */
  predicate IsWhitespace(c: char) {
    || c == ' ' || c == '\t' || c == '\n' || c == '\r' || c == '\U{000B}' || c == '\U{000C}'
    || c == '\U{00A0}' || c == '\U{1680}' || '\U{2000}' <= c <= '\U{200A}'
    || c == '\U{2028}' || c == '\U{2029}' || c == '\U{202F}' || c == '\U{205F}'
    || c == '\U{3000}' || c == '\U{FEFF}'
  }

  /** `s.replace(/\s/g, '')`. */
  function StripWhitespace(s: string): (r: string)
    ensures forall i :: 0 <= i < |r| ==> !IsWhitespace(r[i])
    ensures (forall i :: 0 <= i < |s| ==> !IsWhitespace(s[i])) ==> r == s
    ensures (forall i :: 0 <= i < |s| ==> IsWhitespace(s[i])) ==> r == ""
  {
    if |s| == 0 then ""
    else if IsWhitespace(s[0]) then StripWhitespace(s[1..])
    else [s[0]] + StripWhitespace(s[1..])
  }

  lemma {:induction false} StripConcat(a: string, b: string)
    ensures StripWhitespace(a + b) == StripWhitespace(a) + StripWhitespace(b)
  {
    if |a| > 0 {
      assert (a + b)[0] == a[0];
      assert (a + b)[1..] == a[1..] + b;
      StripConcat(a[1..], b);
    } else {
      assert a + b == b;
    }
  }

  lemma {:induction false} StripOfDigits(s: string)
    requires AllDigits(s)
    ensures StripWhitespace(s) == s
  {
    if |s| > 0 {
      StripOfDigits(s[1..]);
    }
  }

  // ---------------------------------------------------------------------
  // Card expiry: `MM/YY`

  /** The expiry mask: digits only; with more than two, `MM/` followed by
      at most two more digits; otherwise the digits as typed. */
  function ExpiryMask(value: string): (r: string)
    ensures var d := Digits(value);
            |d| <= 2 ==> r == d
    ensures var d := Digits(value);
            |d| > 2 ==> |r| == (if |d| >= 4 then 5 else 4) && r[2] == '/'
  {
    var d := Digits(value);
    if |d| > 2 then d[..2] + ("/" + Sub(d, 2, 4)) else d
  }

  /** The digits kept by the expiry mask are the first four typed. */
  lemma ExpiryMaskKeepsDigits(value: string)
    ensures Digits(ExpiryMask(value)) == Take(Digits(value), 4)
  {
    var d := Digits(value);
    if |d| > 2 {
      DigitsOfDigits(Sub(d, 2, 4));
      DigitsAcrossSeparator(d[..2], "/", Sub(d, 2, 4));
      assert d[..2] + Sub(d, 2, 4) == Take(d, 4);
    } else {
      DigitsOfDigits(d);
    }
  }

  /** Masking a masked expiry changes nothing. */
  lemma ExpiryMaskIdempotent(value: string)
    ensures ExpiryMask(ExpiryMask(value)) == ExpiryMask(value)
  {
    var d := Digits(value);
    var dm := Digits(ExpiryMask(value));
    ExpiryMaskKeepsDigits(value);
    assert dm == Take(d, 4);
    if |d| > 2 {
      assert dm[..2] == d[..2] && Sub(dm, 2, 4) == Sub(d, 2, 4);
    } else {
      assert dm == d;
    }
  }

  /** Month and year as handed to the card tokenizer. */
  datatype Expiry = Expiry(month: string, year: string)

  /** The index of the first occurrence of `c` in `s`. */
  function IndexOf(s: string, c: char): (k: nat)
    requires c in s
    ensures k < |s| && s[k] == c && c !in s[..k]
  {
    if s[0] == c then 0 else 1 + IndexOf(s[1..], c)
  }

  /** `s.split(c)[0]`: everything before the first `c`. */
  function FieldBefore(s: string, c: char): string
    requires c in s
  {
    s[..IndexOf(s, c)]
  }

  /** `s.split(c)[1]`: what lies between the first and the second `c`. */
  function FieldAfter(s: string, c: char): string
    requires c in s
  {
    var rest := s[IndexOf(s, c) + 1..];
    if c in rest then rest[..IndexOf(rest, c)] else rest
  }

  /** The submit-time expiry check: the value must contain `/` and be five
      characters long; the month is what precedes the first `/` and the year
      is `20` followed by what comes after it. */
  function ParseExpiry(e: string): (r: Option<Expiry>)
    ensures r.Some? <==> '/' in e && |e| == 5
    ensures r.Some? ==> |r.value.month| + |r.value.year| <= 6
    ensures r.Some? ==> |r.value.year| >= 2 && r.value.year[..2] == "20"
    ensures r.Some? ==> var m := r.value.month;
                        |m| < |e| && e[..|m|] == m && e[|m|] == '/' && '/' !in m
    ensures r.Some? ==> var rest := e[|r.value.month| + 1..];
                        var y := r.value.year[2..];
                        |y| <= |rest| && rest[..|y|] == y && '/' !in y && (|y| == |rest| || rest[|y|] == '/')
  {
    if '/' in e && |e| == 5 then Some(Expiry(FieldBefore(e, '/'), "20" + FieldAfter(e, '/')))
    else None
  }

  /** A masked expiry passes the submit check exactly when four digits were
      typed, and then it yields the first two as month and `20` plus the
      next two as year. */
  lemma MaskedExpiryParses(value: string)
    ensures var d := Digits(value);
            var p := ParseExpiry(ExpiryMask(value));
            && (p.Some? <==> |d| >= 4)
            && (p.Some? ==> p.value == Expiry(d[..2], "20" + d[2..4]))
  {
    var d := Digits(value);
    var m := ExpiryMask(value);
    if |d| >= 4 {
      assert m == d[..2] + ("/" + d[2..4]);
      assert m[2] == '/' && m[0] != '/' && m[1] != '/';
      assert IndexOf(m, '/') == 2 by {
        assert m[1..][1..] == m[2..];
      }
      assert m[3..] == d[2..4];
      assert '/' !in d[2..4];
    } else if |d| <= 2 {
      assert '/' !in m;
    }
  }
}

=== FILE: payment.dfy ===
/** The vocabulary both revisions of the registration handler share: the
    request body, the answers of the payment service (passed in, never
    computed), the charge request, the HTTP responses, and the PENDING
    attempt data written before the charge. */
module Payment {
  import opened Common
  import opened Store

  /** The registration request body. */
  datatype Request = Request(
    name: string,
    email: string,
    cpf: string,
    phone: string,
    modality: string,         // the empty string stands for a missing modality
    paymentMethod: string,    // "cartao", "boleto", anything else means pix
    installments: JsNumber,
    token: string,
    brand: string)            // `paymentMethodId`, the detected card brand

  /** The payment service's answer to `payment.get` for a stored reference. */
  datatype Lookup = LookupFailed | LookupStatus(status: string)

  /** The payment service's answer to `payment.create`. */
  datatype ChargeReply = ChargeFailed | Charged(id: string, status: string)

  /** The method-specific fields of a charge. */
  datatype MethodFields =
    | Card(token: string, installments: JsNumber, brand: string)
    | Boleto
    | Pix

  /** `payment_method_id` as sent. */
  function MethodId(m: MethodFields): string {
    match m
    case Card(_, _, brand) => brand
    case Boleto => "bolbradesco"
    case Pix => "pix"
  }

  /** The metadata stored with a charge, read back by the status poller. */
  datatype Metadata = Metadata(
    name: string, email: string, cpf: string, phone: string, modality: string, recordIndex: nat)

  /** The body of `payment.create`. */
  datatype PaymentRequest = PaymentRequest(
    amount: int,
    description: string,
    payerEmail: string,
    payerFirstName: string,
    payerCpf: string,
    metadata: Metadata,
    fields: MethodFields)

  /** The registration handler's answers. */
  datatype Response =
    | InvalidModality
    | AlreadyPaid
    | AlreadyApproved
    | Resume(paymentId: string, status: string, amount: int, previousModality: string)
    | InvalidInstallments
    | Declined
    | Created(paymentId: string, status: string, amount: int)
    | ServerError

  function HttpStatus(r: Response): nat {
    match r
    case InvalidModality => 400
    case AlreadyPaid => 409
    case AlreadyApproved => 200
    case Resume(_, _, _, _) => 200
    case InvalidInstallments => 400
    case Declined => 400
    case Created(_, _, _) => 201
    case ServerError => 500
  }

  /** What one registration request does: its response, the store writes it
      issues in order, and the charge it asks the payment service for. */
  datatype Outcome = Outcome(response: Response, writes: seq<Write>, charge: Option<PaymentRequest>)

  /** `name.split(" ")[0]`. */
  function FirstWord(name: string): (w: string)
    ensures w <= name && ' ' !in w
    ensures |w| == |name| || name[|w|] == ' '
  {
    if |name| == 0 || name[0] == ' ' then "" else [name[0]] + FirstWord(name[1..])
  }

  /** The new PENDING record of a first attempt (`alunoData`, no reference yet). */
  function AttemptRecord(req: Request, cpf: string, price: int): Record {
    Record(req.name, req.email, cpf, req.phone, req.modality, price, Pending, None)
  }

  /** `update({ data: alunoData })`: every field but the payment reference. */
  function AttemptPatch(req: Request, cpf: string, price: int): (p: Patch)
    ensures forall r :: ApplyPatch(r, p) == AttemptRecord(req, cpf, price).(paymentId := r.paymentId)
  {
    Patch(Some(req.name), Some(req.email), Some(cpf), Some(req.phone), Some(req.modality),
          Some(price), Some(Pending), None)
  }

  /** The charge request for an attempt stored at index `target`. */
  function ChargeRequest(req: Request, cpf: string, price: int, target: nat, m: MethodFields): (p: PaymentRequest)
    ensures p.amount == price && p.fields == m
    ensures p.description == "Curso Matemática - " + req.modality
    ensures p.payerFirstName <= req.name && ' ' !in p.payerFirstName
    ensures |p.payerFirstName| == |req.name| || req.name[|p.payerFirstName|] == ' '
    ensures p.payerEmail == p.metadata.email == req.email && p.payerCpf == p.metadata.cpf == cpf
    ensures p.metadata == Metadata(req.name, req.email, cpf, req.phone, req.modality, target)
  {
    PaymentRequest(price, "Curso Matemática - " + req.modality, req.email, FirstWord(req.name), cpf,
                   Metadata(req.name, req.email, cpf, req.phone, req.modality, target), m)
  }
}

=== FILE: pricing.dfy ===
/** Tier pricing (`calcularPreco`, identical in both handler revisions):
    the price depends on how many enrollments are already paid and on the
    current time. Prices are integer cents; times are milliseconds since
    the Unix epoch. */
module Pricing {

  /** 2025-12-17T23:59:59-03:00, the end of the time-limited promotion. */
  const PromotionEnd: int := 1_766_026_799_000

  /** The number of paid enrollments that the first tier is reserved for. */
  const FirstTierSeats: nat := 20

  datatype Tier = Tier1 | Tier2 | Tier3

  /** The tier rule, first match wins: fewer than 20 paid enrollments, then
      the promotion period (its last millisecond included), then full price. */
  function TierFor(paidCount: nat, now: int): (t: Tier)
    ensures t == Tier1 <==> paidCount < FirstTierSeats
    ensures t == Tier2 <==> paidCount >= FirstTierSeats && now <= PromotionEnd
  {
    if paidCount < FirstTierSeats then Tier1
    else if now <= PromotionEnd then Tier2
    else Tier3
  }

  /** The price table, in cents: `COM` is with material, `SEM` without. */
  function TierPrice(t: Tier, withMaterial: bool): nat {
    match t
    case Tier1 => if withMaterial then 79900 else 59900
    case Tier2 => if withMaterial then 100000 else 70000
    case Tier3 => if withMaterial then 192000 else 152000
  }

  /** Only the exact modality `COM_MATERIAL` selects the with-material price. */
  predicate WithMaterial(modality: string) {
    modality == "COM_MATERIAL"
  }

  /** `calcularPreco(modalidade)`. */
  function Price(modality: string, paidCount: nat, now: int): (p: nat)
    ensures WithMaterial(modality) ==> p in {79900, 100000, 192000}
    ensures !WithMaterial(modality) ==> p in {59900, 70000, 152000}
  {
    TierPrice(TierFor(paidCount, now), WithMaterial(modality))
  }

  /** The tier order: strictly dearer from tier to tier, for both kinds. */
  function Rank(t: Tier): nat {
    match t
    case Tier1 => 1
    case Tier2 => 2
    case Tier3 => 3
  }

  lemma TiersStrictlyIncrease(a: Tier, b: Tier, withMaterial: bool)
    requires Rank(a) < Rank(b)
    ensures TierPrice(a, withMaterial) < TierPrice(b, withMaterial)
  {
  }

  /** With the time fixed, more paid enrollments never lower the price. */
  lemma PriceMonotoneInPaidCount(modality: string, c1: nat, c2: nat, now: int)
    requires c1 <= c2
    ensures Price(modality, c1, now) <= Price(modality, c2, now)
  {
  }

  /** With the paid count fixed, a later time never lowers the price. */
  lemma PriceMonotoneInTime(modality: string, paidCount: nat, t1: int, t2: int)
    requires t1 <= t2
    ensures Price(modality, paidCount, t1) <= Price(modality, paidCount, t2)
  {
  }

  /** The material always costs extra, whatever the tier. */
  lemma MaterialCostsMore(paidCount: nat, now: int, other: string)
    requires !WithMaterial(other)
    ensures Price(other, paidCount, now) < Price("COM_MATERIAL", paidCount, now)
  {
  }

  /** Which price applies, rule by rule. */
  lemma PriceRule(modality: string, paidCount: nat, now: int)
    ensures paidCount < 20 ==> Price(modality, paidCount, now) == (if modality == "COM_MATERIAL" then 79900 else 59900)
    ensures paidCount >= 20 && now <= PromotionEnd ==>
              Price(modality, paidCount, now) == (if modality == "COM_MATERIAL" then 100000 else 70000)
    ensures paidCount >= 20 && now > PromotionEnd ==>
              Price(modality, paidCount, now) == (if modality == "COM_MATERIAL" then 192000 else 152000)
  {
  }
}

=== FILE: reconcile.dfy ===
/** The payment-status poller (`checkPaymentStatus`, the same in both
    revisions apart from comments and logging): it confirms an approved payment by marking the record linked
    to it PAID, or, when none is linked, rebuilds a PAID record from the
    metadata the payment service kept with the charge. */
module Reconcile {
  import opened Common
  import opened Text
  import opened Store
  import opened Payment
  import opened Enrollment

  /** What `payment.get` reports about a charge. Missing name, phone and
      modality are the empty string; a missing amount is 0. */
  datatype ChargeInfo = ChargeInfo(
    status: string,
    name: string,
    email: string,
    cpf: string,
    phone: string,
    modality: string,
    amount: int)

  /** The payment service's answer to `payment.get` for the polled id. */
  datatype Fetch = FetchFailed | Fetched(info: ChargeInfo)

  datatype PollResponse =
    | NotApproved(status: string)   // the status echoed back
    | AlreadyProcessed
    | Confirmed
    | PollError

  datatype PollOutcome = PollOutcome(response: PollResponse, writes: seq<Write>)

  /** JavaScript's `s || fallback` on a string. */
  function OrElse(s: string, fallback: string): string {
    if s != "" then s else fallback
  }

  /** The PAID record the fallback builds from the charge's metadata. */
  function Rebuilt(id: string, info: ChargeInfo): (r: Record)
    ensures r.status == Paid && r.paymentId == Some(id)
    ensures r.name != "" && r.modality != ""
    ensures r.email == info.email && r.cpf == info.cpf && r.amount == info.amount
    ensures info.name == "" ==> r.name == "Aluno Sem Nome"
    ensures info.name != "" ==> r.name == info.name
    ensures info.modality == "" ==> r.modality == "SEM_MATERIAL"
    ensures info.modality != "" ==> r.modality == info.modality
    ensures r.phone == info.phone
  {
    Record(OrElse(info.name, "Aluno Sem Nome"), info.email, info.cpf, OrElse(info.phone, ""),
           OrElse(info.modality, "SEM_MATERIAL"), info.amount, Paid, Some(id))
  }

  /** `checkPaymentStatus` for the charge `id`. */
  function Poll(t: Table, id: string, fetch: Fetch): (o: PollOutcome)
    ensures fetch.FetchFailed? <==> o.response == PollError
    ensures fetch.Fetched? && fetch.info.status != "approved" <==> o.response.NotApproved?
    ensures o.response.NotApproved? ==> o.response.status == fetch.info.status
    ensures !o.response.Confirmed? ==> o.writes == []
    ensures o.response.Confirmed? ==> |o.writes| == 1
  {
    match fetch
    case FetchFailed => PollOutcome(PollError, [])
    case Fetched(info) =>
      if info.status != "approved" then PollOutcome(NotApproved(info.status), [])
      else match FindFirst(t, LinkedTo(id))
        case Some(k) =>
          if t[k].status == Paid then PollOutcome(AlreadyProcessed, [])
          else PollOutcome(Confirmed, [Update(k, StatusPatch(Paid))])
        case None =>
          var r := Rebuilt(id, info);
          match FindFirst(t, IdentityMatch(r.email, r.cpf))
          case Some(j) => PollOutcome(Confirmed, [Update(j, FullPatch(r))])
          case None => PollOutcome(Confirmed, [Create(r)])
  }

  /** An approved fetch. */
  predicate Approved(fetch: Fetch) {
    fetch.Fetched? && fetch.info.status == "approved"
  }

  // ---------------------------------------------------------------------
  // Properties

  /** A payment that is not approved, or a failed fetch, changes nothing. */
  lemma NonApprovedNoMutation(t: Table, id: string, fetch: Fetch)
    requires !Approved(fetch)
    ensures Apply(t, Poll(t, id, fetch).writes) == t
    ensures Poll(t, id, fetch).response in {PollError, NotApproved(if fetch.Fetched? then fetch.info.status else "")}
  {
  }

  /** "Already processed" exactly when the payment is approved and the
      first record linked to it is PAID; the table is then unchanged. */
  lemma AlreadyProcessedIff(t: Table, id: string, fetch: Fetch)
    ensures var o := Poll(t, id, fetch);
            var k := FindFirst(t, LinkedTo(id));
            o.response == AlreadyProcessed <==> Approved(fetch) && k.Some? && t[k.value].status == Paid
    ensures Poll(t, id, fetch).response == AlreadyProcessed ==> Apply(t, Poll(t, id, fetch).writes) == t
  {
  }

  /** An approved payment whose linked record is not PAID marks that record
      (only that record, and only its status) PAID. */
  lemma LinkedBecomesPaid(t: Table, id: string, fetch: Fetch, k: nat)
    requires Approved(fetch) && FindFirst(t, LinkedTo(id)) == Some(k) && t[k].status != Paid
    ensures Poll(t, id, fetch).response == Confirmed
    ensures Apply(t, Poll(t, id, fetch).writes) == t[k := t[k].(status := Paid)]
  {
    SetStatus(t, k, Paid);
  }

  /** An approved payment no record is linked to is rebuilt from its
      metadata: the first record sharing the metadata's email or CPF is
      replaced by it, or it is appended. */
  lemma FallbackRebuild(t: Table, id: string, fetch: Fetch)
    requires Approved(fetch) && FindFirst(t, LinkedTo(id)).None?
    ensures var r := Rebuilt(id, fetch.info);
            var m := FindFirst(t, IdentityMatch(fetch.info.email, fetch.info.cpf));
            && Poll(t, id, fetch).response == Confirmed
            && Apply(t, Poll(t, id, fetch).writes) == (if m.Some? then t[m.value := r] else t + [r])
  {
    var r := Rebuilt(id, fetch.info);
    ApplyOne(t, Poll(t, id, fetch).writes[0]);
  }

  /** The first record linked to `id` in the table after an approved poll
      is PAID. */
  lemma {:induction false} PolledIsPaid(t: Table, id: string, fetch: Fetch)
    requires Approved(fetch)
    ensures var t' := Apply(t, Poll(t, id, fetch).writes);
            var k := FindFirst(t', LinkedTo(id));
            k.Some? && t'[k.value].status == Paid
  {
    var o := Poll(t, id, fetch);
    var t' := Apply(t, o.writes);
    var p := LinkedTo(id);
    match FindFirst(t, p)
    case Some(k) =>
      if t[k].status != Paid {
        LinkedBecomesPaid(t, id, fetch, k);
        assert p(t'[k]);
        forall j | 0 <= j < k ensures !p(t'[j]) {
          assert t'[j] == t[j];
        }
        FindFirstAt(t', p, k);
      }
    case None =>
      FallbackRebuild(t, id, fetch);
      var r := Rebuilt(id, fetch.info);
      var m := FindFirst(t, IdentityMatch(fetch.info.email, fetch.info.cpf));
      var k := if m.Some? then m.value else |t|;
      assert t'[k] == r && p(r);
      forall j | 0 <= j < k ensures !p(t'[j]) {
        assert t'[j] == t[j];
      }
      FindFirstAt(t', p, k);
  }

  /** A second approved poll of the same payment finds it processed and
      writes nothing, so repeated polls leave the table as the first left it. */
  lemma PollIdempotent(t: Table, id: string, fetch: Fetch, fetch2: Fetch)
    requires Approved(fetch) && Approved(fetch2)
    ensures var t' := Apply(t, Poll(t, id, fetch).writes);
            && Poll(t', id, fetch2).response == AlreadyProcessed
            && Poll(t', id, fetch2).writes == []
  {
    PolledIsPaid(t, id, fetch);
  }

  /** A poll never turns a PAID record into anything else, never removes a
      record, and changes at most one record. */
  lemma PaidStaysPaid(t: Table, id: string, fetch: Fetch)
    ensures var t' := Apply(t, Poll(t, id, fetch).writes);
            && |t'| >= |t|
            && (forall k :: 0 <= k < |t| && t[k].status == Paid ==> t'[k].status == Paid)
            && (forall k, j :: 0 <= k < j < |t| && t'[k] != t[k] ==> t'[j] == t[j])
  {
    var o := Poll(t, id, fetch);
    ApplyGrows(t, o.writes);
    if o.writes != [] {
      ApplyOne(t, o.writes[0]);
      assert o.writes == [o.writes[0]];
    }
  }

  /** The metadata of a charge, as the payment service is taken to report
      it back: unchanged, with the amount charged. */
  function InfoOf(p: PaymentRequest, status: string): ChargeInfo {
    ChargeInfo(status, p.metadata.name, p.metadata.email, p.metadata.cpf, p.metadata.phone,
               p.metadata.modality, p.amount)
  }

  /** The fallback rebuilds from a charge's metadata exactly the attempt
      the registration handler stored, now PAID and linked, whenever the
      buyer gave a name and a phone. */
  lemma RebuildFromChargeMetadata(t: Table, req: Request, now: int, lookup: Lookup, reply: ChargeReply, id: string)
    requires Register(t, req, now, lookup, reply).charge.Some?
    requires req.name != "" && req.phone != ""
    ensures var p := Register(t, req, now, lookup, reply).charge.value;
            Rebuilt(id, InfoOf(p, "approved"))
              == AttemptRecord(req, Digits(req.cpf), PriceFor(t, req, now)).(status := Paid, paymentId := Some(id))
  {
  }

  /** End to end: after a request created charge `id`, an id no record was
      linked to before, an approved poll of `id` confirms it and turns the
      attempt PAID with the amount and modality the buyer was charged. */
  lemma CreatedThenApproved(t: Table, req: Request, now: int, lookup: Lookup, reply: ChargeReply, fetch: Fetch)
    requires Register(t, req, now, lookup, reply).response.Created?
    requires reply.Charged? && forall k :: 0 <= k < |t| ==> t[k].paymentId != Some(reply.id)
    requires Approved(fetch)
    ensures var t1 := Apply(t, Register(t, req, now, lookup, reply).writes);
            var t2 := Apply(t1, Poll(t1, reply.id, fetch).writes);
            var k := Target(t, req);
            && Poll(t1, reply.id, fetch).response == Confirmed
            && k < |t2|
            && t2[k] == AttemptRecord(req, Digits(req.cpf), PriceFor(t, req, now)).(
                          paymentId := Some(reply.id), status := Paid)
  {
    var t1 := Apply(t, Register(t, req, now, lookup, reply).writes);
    var k := Target(t, req);
    var p := LinkedTo(reply.id);
    AttemptRecorded(t, req, now, lookup, reply);
    PaidRecordsUntouched(t, req, now, lookup, reply);
    assert p(t1[k]);
    forall j | 0 <= j < k ensures !p(t1[j]) {
      assert t1[j] == t[j];
    }
    FindFirstAt(t1, p, k);
    LinkedBecomesPaid(t1, reply.id, fetch, k);
  }
}

=== FILE: store.dfy ===
/** The enrollment table as the handlers see it: a sequence of records, the
    first-match lookup they use, and the partial updates and inserts they
    issue. A record's id is its index in the sequence. */
module Store {
  import opened Common

  datatype Status = Pending | Paid | Rejected

  datatype Record = Record(
    name: string,
    email: string,
    cpf: string,
    phone: string,
    modality: string,
    amount: int,              // in cents
    status: Status,
    paymentId: Option<string>)

  /** A partial update: only the fields that are `Some` are written. */
  datatype Patch = Patch(
    name: Option<string>,
    email: Option<string>,
    cpf: Option<string>,
    phone: Option<string>,
    modality: Option<string>,
    amount: Option<int>,
    status: Option<Status>,
    paymentId: Option<string>)

  /** One store operation issued by a handler. */
  datatype Write = Update(index: nat, patch: Patch) | Create(record: Record)

  type Table = seq<Record>

  function Pick<T>(o: Option<T>, current: T): T {
    if o.Some? then o.value else current
  }

  /** Prisma's `update`: the given fields replace the stored ones. */
  function ApplyPatch(r: Record, p: Patch): (r': Record)
    ensures p.name.Some? ==> r'.name == p.name.value
    ensures p.name.None? ==> r'.name == r.name
    ensures p.email.Some? ==> r'.email == p.email.value
    ensures p.email.None? ==> r'.email == r.email
    ensures p.cpf.Some? ==> r'.cpf == p.cpf.value
    ensures p.cpf.None? ==> r'.cpf == r.cpf
    ensures p.phone.Some? ==> r'.phone == p.phone.value
    ensures p.phone.None? ==> r'.phone == r.phone
    ensures p.modality.Some? ==> r'.modality == p.modality.value
    ensures p.modality.None? ==> r'.modality == r.modality
    ensures p.amount.Some? ==> r'.amount == p.amount.value
    ensures p.amount.None? ==> r'.amount == r.amount
    ensures p.status.Some? ==> r'.status == p.status.value
    ensures p.status.None? ==> r'.status == r.status
    ensures p.paymentId.Some? ==> r'.paymentId == p.paymentId
    ensures p.paymentId.None? ==> r'.paymentId == r.paymentId
  {
    Record(Pick(p.name, r.name), Pick(p.email, r.email), Pick(p.cpf, r.cpf), Pick(p.phone, r.phone),
           Pick(p.modality, r.modality), Pick(p.amount, r.amount), Pick(p.status, r.status),
           if p.paymentId.Some? then p.paymentId else r.paymentId)
  }

  /** `data: { status }`. */
  function StatusPatch(s: Status): Patch {
    Patch(None, None, None, None, None, None, Some(s), None)
  }

  /** `data: { paymentId }`. */
  function LinkPatch(id: string): Patch {
    Patch(None, None, None, None, None, None, None, Some(id))
  }

  /** `data: record`, every field given. */
  function FullPatch(r: Record): (p: Patch)
    requires r.paymentId.Some?
    ensures forall prior :: ApplyPatch(prior, p) == r
  {
    Patch(Some(r.name), Some(r.email), Some(r.cpf), Some(r.phone), Some(r.modality),
          Some(r.amount), Some(r.status), r.paymentId)
  }

  /** One write. An update of a missing id leaves the table unchanged. */
  function Step(t: Table, w: Write): (t': Table)
    ensures w.Create? ==> t' == t + [w.record]
    ensures w.Update? && w.index < |t| ==> t' == t[w.index := ApplyPatch(t[w.index], w.patch)]
    ensures w.Update? && w.index >= |t| ==> t' == t
    ensures |t'| == |t| + (if w.Create? then 1 else 0)
  {
    match w
    case Create(r) => t + [r]
    case Update(i, p) => if i < |t| then t[i := ApplyPatch(t[i], p)] else t
  }

  /** The table after a handler's writes, in order. */
  function Apply(t: Table, ws: seq<Write>): Table
    decreases |ws|
  {
    if |ws| == 0 then t else Apply(Step(t, ws[0]), ws[1..])
  }

  /** `findFirst({ where })`: the index of the first record satisfying `p`. */
  function FindFirst(t: Table, p: Record -> bool): (r: Option<nat>)
    ensures r.Some? ==> r.value < |t| && p(t[r.value])
    ensures r.Some? ==> forall j :: 0 <= j < r.value ==> !p(t[j])
    ensures r.None? ==> forall j :: 0 <= j < |t| ==> !p(t[j])
  {
    if |t| == 0 then None
    else if p(t[0]) then Some(0)
    else match FindFirst(t[1..], p)
      case None => None
      case Some(k) => Some(k + 1)
  }

  /** `{ OR: [{ email }, { cpf }] }`. */
  function IdentityMatch(email: string, cpf: string): Record -> bool {
    (r: Record) => r.email == email || r.cpf == cpf
  }

  /** `{ paymentId: id }`. */
  function LinkedTo(id: string): Record -> bool {
    (r: Record) => r.paymentId == Some(id)
  }

  /** `count({ where: { status: 'PAID' } })`. */
  function CountPaid(t: Table): (n: nat)
    ensures n <= |t|
  {
    if |t| == 0 then 0 else CountPaid(t[..|t| - 1]) + (if t[|t| - 1].status == Paid then 1 else 0)
  }

  /** No PAID record exactly when the count is 0; all PAID exactly when it
      is the table's length. */
  lemma {:induction false} CountPaidExtremes(t: Table)
    ensures CountPaid(t) == 0 <==> forall k :: 0 <= k < |t| ==> t[k].status != Paid
    ensures CountPaid(t) == |t| <==> forall k :: 0 <= k < |t| ==> t[k].status == Paid
    decreases |t|
  {
    if |t| > 0 {
      var n := |t|;
      CountPaidExtremes(t[..n - 1]);
      assert forall k :: 0 <= k < n - 1 ==> t[..n - 1][k] == t[k];
    }
  }

  /** The email-or-CPF lookup, in terms of the records' fields: it finds the
      first record sharing the email or the CPF, and nothing exactly when no
      record shares either. */
  lemma IdentityMatchFirst(t: Table, email: string, cpf: string)
    ensures var m := FindFirst(t, IdentityMatch(email, cpf));
            && (m.None? <==> forall j :: 0 <= j < |t| ==> t[j].email != email && t[j].cpf != cpf)
            && (m.Some? ==> (t[m.value].email == email || t[m.value].cpf == cpf)
                            && forall j :: 0 <= j < m.value ==> t[j].email != email && t[j].cpf != cpf)
  {
    var p := IdentityMatch(email, cpf);
    var m := FindFirst(t, p);
    if m.Some? {
      assert p(t[m.value]);
      forall j | 0 <= j < m.value ensures t[j].email != email && t[j].cpf != cpf {
        assert !p(t[j]);
      }
    } else {
      forall j | 0 <= j < |t| ensures t[j].email != email && t[j].cpf != cpf {
        assert !p(t[j]);
      }
    }
  }

  /** Marking one record PAID that was not raises the PAID count by one. */
  lemma {:induction false} CountPaidMarkPaid(t: Table, i: nat)
    requires i < |t| && t[i].status != Paid
    ensures CountPaid(t[i := t[i].(status := Paid)]) == CountPaid(t) + 1
    decreases |t|
  {
    var t' := t[i := t[i].(status := Paid)];
    var n := |t|;
    var c := CountPaid(t[..n - 1]);
    assert CountPaid(t) == c + (if t[n - 1].status == Paid then 1 else 0);
    if i == n - 1 {
      assert t'[..n - 1] == t[..n - 1];
      assert CountPaid(t') == c + 1;
    } else {
      assert t'[..n - 1] == t[..n - 1][i := t[i].(status := Paid)];
      assert t'[n - 1] == t[n - 1];
      CountPaidMarkPaid(t[..n - 1], i);
      assert CountPaid(t') == CountPaid(t'[..n - 1]) + (if t[n - 1].status == Paid then 1 else 0);
    }
  }

  /** Every update among `ws` is addressed to `k`. */
  predicate OnlyTargets(ws: seq<Write>, k: nat) {
    forall j :: 0 <= j < |ws| && ws[j].Update? ==> ws[j].index == k
  }

  /** No update among `ws` is addressed to `k`. */
  predicate Untargeted(ws: seq<Write>, k: nat) {
    forall j :: 0 <= j < |ws| ==> !(ws[j].Update? && ws[j].index == k)
  }

  // ---------------------------------------------------------------------
  // Properties of writes

  lemma {:induction false} ApplyConcat(t: Table, a: seq<Write>, b: seq<Write>)
    ensures Apply(t, a + b) == Apply(Apply(t, a), b)
    decreases |a|
  {
    if |a| > 0 {
      assert (a + b)[0] == a[0];
      assert (a + b)[1..] == a[1..] + b;
      ApplyConcat(Step(t, a[0]), a[1..], b);
    } else {
      assert a + b == b;
    }
  }

  /** Writes leave every record no update addresses as it was. */
  lemma {:induction false} ApplyKeepsUntargeted(t: Table, ws: seq<Write>, k: nat)
    requires k < |t| && Untargeted(ws, k)
    ensures k < |Apply(t, ws)| && Apply(t, ws)[k] == t[k]
    decreases |ws|
  {
    if |ws| > 0 {
      var t1 := Step(t, ws[0]);
      assert |t1| >= |t| && t1[k] == t[k];
      assert Untargeted(ws[1..], k) by {
        forall j | 0 <= j < |ws[1..]| ensures !(ws[1..][j].Update? && ws[1..][j].index == k) {
          assert ws[1..][j] == ws[j + 1];
        }
      }
      ApplyKeepsUntargeted(t1, ws[1..], k);
    }
  }

  /** Writes never remove records. */
  lemma {:induction false} ApplyGrows(t: Table, ws: seq<Write>)
    ensures |Apply(t, ws)| >= |t|
    decreases |ws|
  {
    if |ws| > 0 {
      ApplyGrows(Step(t, ws[0]), ws[1..]);
    }
  }

  /** Applying one write is `Step`. */
  lemma ApplyOne(t: Table, w: Write)
    ensures Apply(t, [w]) == Step(t, w)
  {
    assert [w][1..] == [];
  }

  /** A status-only update changes nothing but that record's status. */
  lemma SetStatus(t: Table, i: nat, s: Status)
    requires i < |t|
    ensures Apply(t, [Update(i, StatusPatch(s))]) == t[i := t[i].(status := s)]
  {
    ApplyOne(t, Update(i, StatusPatch(s)));
  }
}

=== FILE: text.dfy ===
/** Character-level helpers shared by the front-end masks and the back-end
    identity normalisation: the `\D`-stripping that every mask and the CPF
    cleaner perform (`replace(/\D/g, '')`). */
module Text {

  predicate IsDigit(c: char) {
    '0' <= c <= '9'
  }

  predicate AllDigits(s: string) {
    forall i :: 0 <= i < |s| ==> IsDigit(s[i])
  }

  /** The numeric value of a decimal digit character. */
  function DigitValue(c: char): (v: nat)
    requires IsDigit(c)
    ensures v <= 9
  {
    c as int - '0' as int
  }

  /** The decimal digits of `s`, in order: `s.replace(/\D/g, '')`. */
  function Digits(s: string): (r: string)
    ensures AllDigits(r)
    ensures |r| <= |s|
  {
    if |s| == 0 then ""
    else if IsDigit(s[0]) then [s[0]] + Digits(s[1..])
    else Digits(s[1..])
  }

  /** The first `n` characters of `s`, or all of them when `s` is shorter:
      JavaScript's `s.slice(0, n)` and `s.substring(0, n)` for `n >= 0`. */
  function Take(s: string, n: nat): (r: string)
    ensures |r| == if |s| <= n then |s| else n
    ensures r <= s
  {
    if |s| <= n then s else s[..n]
  }

  /** `s.substring(from, to)` with both bounds clamped to the string. */
  function Sub(s: string, from: nat, to: nat): (r: string)
    requires from <= to
    ensures |r| == (if to <= |s| then to else |s|) - (if from <= |s| then from else |s|)
  {
    var hi := if to <= |s| then to else |s|;
    var lo := if from <= |s| then from else |s|;
    s[lo..hi]
  }

  /** Removing the non-digits distributes over concatenation. */
  lemma {:induction false} DigitsConcat(a: string, b: string)
    ensures Digits(a + b) == Digits(a) + Digits(b)
  {
    if |a| == 0 {
      assert a + b == b;
    } else {
      assert (a + b)[0] == a[0];
      assert (a + b)[1..] == a[1..] + b;
      DigitsConcat(a[1..], b);
    }
  }

  /** A string made of digits only is its own digit filter. */
  lemma {:induction false} DigitsOfDigits(s: string)
    requires AllDigits(s)
    ensures Digits(s) == s
  {
    if |s| > 0 {
      DigitsOfDigits(s[1..]);
    }
  }

  /** Removing the non-digits twice is removing them once. */
  lemma DigitsIdempotent(s: string)
    ensures Digits(Digits(s)) == Digits(s)
  {
    DigitsOfDigits(Digits(s));
  }

  /** A string with no digit at all filters to the empty string. */
  lemma {:induction false} DigitsOfNonDigits(s: string)
    requires forall i :: 0 <= i < |s| ==> !IsDigit(s[i])
    ensures Digits(s) == ""
  {
    if |s| > 0 {
      DigitsOfNonDigits(s[1..]);
    }
  }

  /** A separator between digit groups is dropped by the cleaner. */
  lemma DigitsAcrossSeparator(a: string, sep: string, b: string)
    requires AllDigits(a)
    requires forall i :: 0 <= i < |sep| ==> !IsDigit(sep[i])
    ensures Digits(a + (sep + b)) == a + Digits(b)
  {
    var db := Digits(b);
    DigitsConcat(a, sep + b);
    DigitsConcat(sep, b);
    DigitsOfDigits(a);
    DigitsOfNonDigits(sep);
    assert Digits(sep + b) == "" + db;
    assert "" + db == db;
  }
}
